=== FILE: README.md ===
# googlephotos2nextcloud: the migration decisions, in Dafny

This project models the decision logic of googlephotos2nextcloud, a tool
that moves a Google Photos (Takeout) export into a Nextcloud account over
WebDAV. The model covers five parts:

- **The directory job** (`DirectoryTask`). It runs on one exported album
  directory and hashes every photo file.
  - A photo whose content is already on the server is only reconciled. The
    remote copy is renamed when the local name carries no increment, the
    remote name carries one (such as the `(2)` in `IMG_1(2).jpg`), and the
    two names still differ once that increment is stripped. Each remote
    copy whose album identifier the album does not list yet is copied into
    the album, so two remote copies of one photo give two COPYs.
  - Any other photo is uploaded into a `/Y/m` collection named by its taken
    time.
  - The first exception ends the job with `failed: …` and writes
    `gp2nc-error.log`. While that log exists, later jobs on the directory
    skip it.
- **The taken-time resolver** (`Metadata::takenTime`). It tries sidecar
  JSON files first, then the EXIF date tags, then the modification time,
  and memoises every answer per photo path.
- **The progress store** (`Progress`). It keeps one record per (migration
  root, content hash). A record is either a legacy `.txt` remote path or a
  `.json` `[remotePath, albums]` pair.
- **The two ways of making a remote collection.**
  - `RemoteDirectory::create` probes and makes each segment in turn, and
    memoises successes only.
  - `IO::createDirectory` probes the full path once, makes each segment
    without further probes, and memoises a failure under the failing
    segment.
- **Upload verification** (`RemoteFile::upload`). A PUT is followed by a
  HEAD that must report the local size.

The WebDAV server is an oracle, `Remote.Server`: a function from the
requests sent so far and the next request to a response. Every operation
threads the trace of requests it sent and returns the extended trace.

The local filesystem is another oracle, `FileSystem.Fs`. It covers the
`glob` listing, `is_file`, `file_exists`, `filesize`, `filemtime`,
`md5_file`, the decoded sidecar JSON and the EXIF tags that Imagick reports.

The static memos (`Metadata::$cache` and the `static $cache` of the two
directory creators) are explicit maps, passed in and returned.

Modules, one per source class plus shared helpers:

- `Common`: `Option`/`Result`, and the PHP string and path functions used
  (`basename`, `dirname`, `explode`, `ltrim`, `rtrim`, `strrpos`).
- `FileSystem`: the local-file oracle and `glob` with a single `*`.
- `Increment`: the filename-increment pattern `\([\w\d\s]+\)`.
- `Metadata`, `Progress`, `Remote`, `RemoteDirectory`, `IO`, `RemoteFile`,
  `DirectoryTask`.

## Model

| member | source | states |
|---|---|---|
| `Increment.ContainsIncrementIffGroup` | src/DirectoryTask.php:26-28 | a name contains an increment exactly when some substring of it is `(`, one or more word or space characters, `)` |
| `Increment.NoParenNoIncrement` | src/DirectoryTask.php:26-28 | a name without `(` never contains an increment |
| `Increment.StripIncrements` | src/DirectoryTask.php:31-32 | removing the increment groups never makes a name longer; the three lemmas below (with `StripEmpty`, the empty name) fix the result for every name |
| `Increment.StripDropsLeadingGroup` | src/DirectoryTask.php:31 | a group at the start of the name is removed whole, and the scan resumes right after it |
| `Increment.StripKeepsPlainFirst` | src/DirectoryTask.php:31 | a first character that starts no group (any character but `(`, or a `(` that nothing closes) is kept, and the rest is stripped on its own |
| `Increment.ParenBeforeGroup` | src/DirectoryTask.php:31 | a `(` directly before a group stays while the group goes: `((1).jpg` becomes `(.jpg` |
| `Increment.StripChangesIffIncrement` | src/DirectoryTask.php:30-32 | removing the increment groups changes a name exactly when it contains one |
| `Increment.StripShortensIncrement` | src/DirectoryTask.php:30-32 | removing the groups from a name that has one makes it strictly shorter |
| `Increment.StripStemGroupTail` | src/DirectoryTask.php:31 | a `(`-free stem, one increment group and a `(`-free tail strip to stem followed by tail |
| `Increment.SameWithoutIncrementIsEquality` | src/DirectoryTask.php:30-34 | for two names without increments, equality after stripping is plain string equality |
| `DirectoryTask.RenameIffStripped` | src/DirectoryTask.php:80-102 | a remote duplicate is renamed exactly when stripping leaves the local name unchanged, changes the remote name, and the stripped remote name still differs from the local name |
| `DirectoryTask.IncrementedCopyStays` | src/DirectoryTask.php:80-87 | a remote `stem(n)ext` next to a local `stemext` counts as the same name and is not renamed |
| `DirectoryTask.IncrementedOtherIsRenamed` | src/DirectoryTask.php:80-100 | an incremented remote name whose stripped form differs from a plain local name is renamed |
| `DirectoryTask.PlainNamesStay` | src/DirectoryTask.php:84-85 | two different names without `(` are never renamed into each other |
| `DirectoryTask.AlbumPath` | src/DirectoryTask.php:37-39 | the album path exists exactly when the directory's basename is one of the user's albums, and it is the albums base, `/` and the encoded name |
| `DirectoryTask.PhotoFiles` | src/DirectoryTask.php:48-58 | the photos are exactly the regular files listed directly in the directory whose names do not end in `.json` |
| `DirectoryTask.PhotoFilesInListingOrder` | src/DirectoryTask.php:48-58 | globbing and the two filters keep the photos in the directory's listing order, each once: the result equals a single in-order pass over the listing |
| `DirectoryTask.Start` | src/DirectoryTask.php:51-54 | an album directory sends one depth-1 PROPFIND of the album before the loop, and its answer's members are the album members; both memos are kept; any other directory sends nothing and starts with no album members |
| `DirectoryTask.Reconcile` | src/DirectoryTask.php:76-116 | one duplicate sends at most a MOVE and a COPY; it sends nothing else and touches neither memo; without an album the album members are untouched |
| `DirectoryTask.ReconcileRequests` | src/DirectoryTask.php:80-113 | the requests appended are exactly: a MOVE of the duplicate to its directory plus the URL-encoded local-name variant that the free-name search finds on the server as the requests so far leave it, when the classification says rename, then a COPY of the duplicate's original path to the album plus its remote name when the album identifier was not listed; afterwards the identifier is listed |
| `DirectoryTask.ReconcileAll` | src/DirectoryTask.php:74-118 | the loop over a hash's duplicates only appends MOVEs and COPYs to the trace and leaves both memos as they were |
| `DirectoryTask.ReconcileAllKeepsCopiedOnce` | src/DirectoryTask.php:104-113 | over a hash's duplicates, each album identifier is copied at most once, and only when the album's listing did not hold it |
| `DirectoryTask.ReconcileAllFillsAlbum` | src/DirectoryTask.php:104-111 | after the loop, every duplicate's `album/fileid-name` identifier is an album member, and no earlier member is lost |
| `DirectoryTask.ReconcileAllRenames` | src/DirectoryTask.php:76-102 | the duplicate loop moves exactly the duplicates the classification marks for renaming, in the duplicates' order, and nothing else; each MOVE goes to the free name found on the server as the requests before it leave it |
| `DirectoryTask.SecondRenameSeesFirst` | src/DirectoryTask.php:89-100 | of two duplicates to be renamed, the second target is looked up on the server after the first MOVE |
| `DirectoryTask.RenameListedIff` | src/DirectoryTask.php:80-100 | a duplicate's path is among those the loop moves exactly when its own classification says rename |
| `DirectoryTask.UploadNew` | src/DirectoryTask.php:120-136 | a new photo leaves the album members and the hashed list alone and only extends the trace; a taken-time lookup that throws ends the step with its message, sends nothing and keeps the lookup's memo |
| `DirectoryTask.CreateAndUpload` | src/DirectoryTask.php:122-136 | once the taken time is memoised, making the collection and uploading leave that memo as it is and only extend the trace; a collection that cannot be made ends the step with its message and the collection's trace; otherwise the collection's trace and memo are kept and the upload follows them |
| `DirectoryTask.UploadInto` | src/DirectoryTask.php:124-136 | the step throws exactly when the upload does, with its message and trace; an upload that goes through is followed by a COPY of the target to the album plus the encoded name when there is an album, and by nothing otherwise; both memos are kept |
| `DirectoryTask.UploadNewSucceedsIff` | src/DirectoryTask.php:120-128 | a new photo goes through exactly when its taken time resolves, its `/Y/m` collection is made, and the upload into it succeeds |
| `DirectoryTask.UploadNewTarget` | src/DirectoryTask.php:122-136 | a new photo that goes through is PUT to the base path, its taken time's `/Y/m` collection and its raw-URL-encoded basename, with its mtime, taken time and size; with an album, the last request is the COPY of that target into the album |
| `DirectoryTask.CreateAndUploadTarget` | src/DirectoryTask.php:122-136 | with the taken time memoised, a photo that goes through is PUT to its `/Y/m` target, and with an album the last request is the COPY of that target |
| `DirectoryTask.UploadIntoTarget` | src/DirectoryTask.php:124-128 | an upload that goes through starts with the PUT to the collection plus the raw-URL-encoded basename, with the photo's mtime, taken time and size |
| `DirectoryTask.UploadNewKeepsMemos` | src/DirectoryTask.php:120-122 | a new photo keeps the directory memo free of failures, and a photo that goes through has its taken time memoised |
| `DirectoryTask.ProcessFile` | src/DirectoryTask.php:67-137 | one photo is appended to the hashed list; the trace only grows; the directory memo stays free of failures; without an album the album members are untouched |
| `DirectoryTask.KnownContentIsReconciled` | src/DirectoryTask.php:74-118 | a photo whose hash is already remote runs the duplicate loop and nothing else and throws nothing; the MOVEs it sends move exactly the duplicates its classification marks, in order, each to the free name found on the server as the requests before it leave it; each duplicate is moved exactly when its classification says so; and with an album every duplicate's identifier ends up listed and no member is lost |
| `DirectoryTask.NewContentIsUploaded` | src/DirectoryTask.php:74-136 | a photo whose hash is not remote is uploaded: it goes through exactly when its taken time resolves, its `/Y/m` collection is made and the upload into it succeeds; then it was PUT to that collection under its raw-URL-encoded basename, and with an album the last request is the COPY of that target into the album |
| `DirectoryTask.KnownContentIsNotUploaded` | src/DirectoryTask.php:74-118 | a photo whose hash is already remote throws nothing; it sends only MOVEs and COPYs and leaves the taken-time and directory memos unchanged, so no PUT, lookup or collection creation happens |
| `DirectoryTask.ProcessFiles` | src/DirectoryTask.php:66-137 | the loop hashes a prefix of the photos in order: all of them when nothing throws, and up to and including the photo that threw otherwise |
| `DirectoryTask.AbortIgnoresLaterFiles` | src/DirectoryTask.php:66-140 | once a photo throws, appending more photos to the list changes nothing |
| `DirectoryTask.ProcessFilesFailsAtLastHashed` | src/DirectoryTask.php:66-140 | a loop that throws has the exception of the last photo it hashed: every photo before it went through, and that photo's own step, taken from the state they left, is the loop's result |
| `DirectoryTask.ProcessFilesKeepsCopiedOnce` | src/DirectoryTask.php:104-113 | over the whole loop, album identifiers stay copied at most once and only when not listed at the start |
| `DirectoryTask.Run` | src/DirectoryTask.php:48-67 | the loop hashes the directory's photos in listing order: all of them when nothing throws, and a non-empty prefix of them otherwise |
| `DirectoryTask.Conclude` | src/DirectoryTask.php:17-24 | the job returns `done` with no error log exactly when the loop threw nothing; otherwise it returns `failed: ` plus the loop's own message, and the error log starts with `Failed reading metadata: ` plus that message |
| `DirectoryTask.Invoke` | src/DirectoryTask.php:36-143 | with an error log present, the job returns the skip message, sends no request and changes no memo; otherwise its state is the loop's, and it returns `done` exactly when the loop threw nothing and `failed: ` plus the loop's message otherwise |
| `DirectoryTask.JobHashesPhotosInOrder` | src/DirectoryTask.php:56-70 | a job that completes has hashed every photo in listing order; a failed job has hashed a non-empty prefix of them; no `.json` file is ever hashed |
| `DirectoryTask.JobCopiesOncePerIdentifier` | src/DirectoryTask.php:51-136 | within one job no album identifier is copied twice or copied when the PROPFIND listed it; a non-album directory records no album addition and its trace after the job's start holds no COPY, neither for a duplicate nor for an upload |
| `DirectoryTask.ProcessFilesSendsNoCopy` | src/DirectoryTask.php:104-136 | without an album, the whole loop sends no COPY request |
| `DirectoryTask.FailureThenSkip` | src/DirectoryTask.php:44-46 | after a failed job has written its error log, the next job on the directory returns the skip message |
| `Metadata.SplitExtension` | src/Metadata.php:24 | the extension is the dot-free text after the last `.`, and the path is base, `.`, extension; a path with no dot is all extension, with no base |
| `Metadata.IncrementSuffix` | src/Metadata.php:28 | a match is a non-empty `(`-free stem that starts at the beginning or just after a `(`, followed by a final `(digits)`; no match means no `(`-free run precedes a final counter |
| `Metadata.Candidates` | src/Metadata.php:27-39 | every candidate sidecar is a listed file ending in `.json` |
| `Metadata.CandidatesWithoutSuffix` | src/Metadata.php:27-28 | without an increment suffix, the candidates are exactly the listed files matching `path*.json` |
| `Metadata.CandidatesWithSuffix` | src/Metadata.php:28-38 | if the original is missing, the list is unchanged; if it has the same size, the counter sidecars are appended; if its size differs, the list is exactly the counter sidecars |
| `Metadata.SidecarTimestamp` | src/Metadata.php:50-55 | a sidecar's `photoTakenTime` wins over its `creationTime`, which is used only when the first is absent |
| `Metadata.FirstSidecar` | src/Metadata.php:44-62 | the chosen candidate is the first regular file whose sidecar yields a time, and no candidate yields one when none is chosen |
| `Metadata.MatchesAtIffPrefixInPattern` | src/Metadata.php:13-14 | the greedy digit-run matcher succeeds exactly when some prefix of the text is an instance of the date pattern |
| `Metadata.FirstFormat` | src/Metadata.php:73-78 | the chosen format is the first, in declared order, whose pattern occurs in the tag text |
| `Metadata.FirstSource` | src/Metadata.php:67-79 | the chosen tag is the first, in priority order, that is present and recognised by some format |
| `Metadata.ExifTime` | src/Metadata.php:65-79 | the EXIF value exists exactly when some source matches; it is the first matching source's text parsed with its first matching format |
| `Metadata.ExifAttemptsFirstValue` | src/Metadata.php:67-78 | the EXIF value is the first success over all (source, format) pairs, sources outermost |
| `Metadata.Resolve` | src/Metadata.php:41-83 | resolving throws a caught exception exactly when no sidecar yields a time and the image cannot be opened, and then with the open error's message |
| `Metadata.ResolveIsFirstValue` | src/Metadata.php:41-83 | when the image opens, the result is the first value over sidecars, then (source, format) pairs, then mtime |
| `Metadata.MtimeFallback` | src/Metadata.php:82-83 | with no sidecar value and no recognised EXIF tag, the result is the file's modification time |
| `Metadata.TakenTimeOf` | src/Metadata.php:19-83 | a memoised path is answered from the memo with nothing read; otherwise the resolved value is memoised under the path, and a thrown lookup leaves the memo alone |
| `Metadata.CachedLookupIsStable` | src/Metadata.php:20-22 | once resolved, a path gets the same answer and the same memo whatever the filesystem says later |
| `Progress.SiblingsShareRecord` | src/Progress.php:7-11 | the record key depends only on the grandparent directory and the hash, so sibling album directories share a record |
| `Progress.CheckAt` | src/Progress.php:31-37 | `check` returns nothing exactly when neither record exists; a legacy `.txt` record reads as `[content, []]` and beats a `.json` one |
| `Progress.Unique` | src/Progress.php:58 | `array_unique` yields a duplicate-free list with the same members |
| `Progress.Merge` | src/Progress.php:44-52 | the merged album list has no duplicates and holds exactly the recorded albums plus the new one |
| `Progress.UpdateAt` | src/Progress.php:40-59 | `update` leaves no `.txt` record for the key and writes a `.json` record with the given remote path; every other key is untouched |
| `Progress.UpdateThenCheck` | src/Progress.php:43-58 | reading after `update` gives the new remote path and a duplicate-free album list that holds every earlier album and the new one, and nothing else |
| `Progress.UpdateWithoutAlbum` | src/Progress.php:50-52 | `update` without an album keeps the album set, and keeps the list itself when it had no duplicates |
| `Progress.MergeIsIdempotent` | src/Progress.php:50-58 | merging the same album twice gives the same list as merging it once |
| `Progress.UpdateIsIdempotent` | src/Progress.php:40-59 | recording the same photo, path and album twice gives the same store as recording it once |
| `RemoteDirectory.Mkdir` | src/RemoteDirectory.php:7-20 | a HEAD status other than 404 means success with no MKCOL; after a 404, success exactly when the MKCOL status is in [200, 399] |
| `RemoteDirectory.SegmentPaths` | src/RemoteDirectory.php:37-39 | there is one segment per `/`-separated part of the path with leading `/` removed; they run root to leaf, each the parent of the next, and the last is the path with one leading `/` |
| `RemoteDirectory.SegmentPathsAreJoins` | src/RemoteDirectory.php:37-39 | the k-th segment is `/` followed by the first k+1 parts of the path joined with `/` |
| `RemoteDirectory.YearMonthSegments` | src/RemoteDirectory.php:37-39 | a `/Y/m` path is made as exactly two segments, `/Y` and then `/Y/m` |
| `RemoteDirectory.MkdirEach` | src/RemoteDirectory.php:37-43 | a failing walk names a segment that exists, and the walk sends only HEADs and MKCOLs |
| `RemoteDirectory.MkdirEachProbesInOrder` | src/RemoteDirectory.php:37-43 | the walk probes the segments in order: all of them, or exactly those up to the failing one |
| `RemoteDirectory.MkdirEachStopsAtFailure` | src/RemoteDirectory.php:38-42 | a failed walk ends with the failing segment's 404 probe and its refused MKCOL, so no later segment is tried |
| `RemoteDirectory.Create` | src/RemoteDirectory.php:31-46 | a memoised path is answered with no request; otherwise success means every segment was made, returns base plus path and memoises it; failure throws and memoises nothing |
| `RemoteDirectory.CreateProbesRootToLeaf` | src/RemoteDirectory.php:37-43 | an unmemoised path is probed segment by segment from the root, stopping right after the refused MKCOL |
| `RemoteDirectory.CreateRetriesAfterFailure` | src/RemoteDirectory.php:33-44 | after a failure the path is not memoised, so the next call probes the first segment again |
| `IO.MkcolEach` | src/IO.php:28-38 | a walk that fails names an existing segment; it sent one MKCOL per segment up to that one, or one per segment when none failed |
| `IO.MkcolEachSendsSegments` | src/IO.php:28-32 | the walk's i-th request is the MKCOL of the i-th segment |
| `IO.MkcolEachStopsAtFirstRefusal` | src/IO.php:32-37 | each MKCOL sent was refused exactly when the walk reports its failure there |
| `IO.CreateDirectory` | src/IO.php:15-41 | a memo hit is answered with no request; a non-404 probe memoises and returns the path with no MKCOL; after a 404, success memoises the full path and failure memoises `false` under the failing segment |
| `IO.CreateDirectoryMakesSegmentsInOrder` | src/IO.php:28-37 | after a 404 the probe of the full path is the only HEAD, and the MKCOLs go to the segments root to leaf: all of them, or up to the refused one, memoised as `false` |
| `IO.RetryAfterFailure` | src/IO.php:17-37 | after a failure a later call answers `false` from the memo only when the failing segment is the full path; otherwise it probes the server again |
| `RemoteFile.Verify` | src/RemoteFile.php:23-31 | the HEAD check succeeds exactly on status 200 with a first content-length equal to the local size; the three failures are reported in source order with their own messages |
| `RemoteFile.Upload` | src/RemoteFile.php:8-31 | a taken-time lookup that throws sends nothing and passes its message on; the lookup memo is updated as the lookup does |
| `RemoteFile.UploadRequests` | src/RemoteFile.php:11-24 | a refused PUT throws with its status and sends no HEAD; otherwise the PUT is followed by one HEAD, and the HEAD response decides the outcome |
| `RemoteFile.UploadSucceedsIff` | src/RemoteFile.php:17-31 | `upload` returns true exactly when the lookup succeeds, the PUT status is in [200, 399], the HEAD status is 200 and the first content-length equals the local size |
| `RemoteFile.UploadSendsOnePut` | src/RemoteFile.php:11-21 | exactly one PUT is sent, to the target, and at most one HEAD, to the same target, after it |

Some members model a source function directly but carry no contract of
their own. The rows above that state them:

- `Increment.ContainsIncrement` (`filenameContainsIncrement`,
  src/DirectoryTask.php:26-28): `Increment.ContainsIncrementIffGroup` and
  `Increment.NoParenNoIncrement`.
- `Increment.SameWithoutIncrement` (`filenamesWithouthIncrementAreIdentical`,
  src/DirectoryTask.php:30-34): `Increment.StripChangesIffIncrement`,
  `Increment.StripStemGroupTail` and `Increment.SameWithoutIncrementIsEquality`.
- `DirectoryTask.Classify` (the tests at src/DirectoryTask.php:80-102):
  `DirectoryTask.RenameIffStripped`, `DirectoryTask.IncrementedCopyStays`,
  `DirectoryTask.IncrementedOtherIsRenamed` and `DirectoryTask.PlainNamesStay`.
- `Progress.RecordPath` (`Progress::path`, src/Progress.php:7-11):
  `Progress.SiblingsShareRecord`.
- `Progress.Check` and `Progress.Update` (src/Progress.php:31-59) apply
  `Progress.CheckAt` and `Progress.UpdateAt` to the photo's record key:
  `Progress.CheckAt`, `Progress.UpdateAt`, `Progress.UpdateThenCheck`,
  `Progress.UpdateWithoutAlbum` and `Progress.UpdateIsIdempotent`.
- `Metadata.OriginalOf` (src/Metadata.php:29): `Metadata.CandidatesWithSuffix`.
- `Metadata.MatchesFormat` (the date patterns at src/Metadata.php:13-14,
  tried at line 74): `Metadata.MatchesAtIffPrefixInPattern` and
  `Metadata.FirstFormat`.

## Left out

- The `$attempt` retry wrapper and the transport exceptions it throws after
  its retries. Each server answer is the answer after retries.
- `IO::write` (console output), `IO::readJson` (sidecars arrive already
  decoded), and the `mkdir` of the `.progress` directory inside
  `Progress::path`.
- `gp2nc.php`, the command-line script. It parses arguments, builds the
  WebDAV client, creates albums and walks the directories. The job's
  environment (`DirectoryTask.Env`) takes its place.
- The legacy per-directory migration in `Progress::check`
  (src/Progress.php:15-28). As written, `update` re-enters `check` before
  the old file is unlinked, so it does not terminate. The legacy form
  `CheckAt` models is the one under `.progress` in the root.
- `Progress` is modelled as a store of its own. `DirectoryTask` does not
  call it, and the model keeps it that way.
- `RemoteFile::move`, `RemoteFile::existsTest` and the media cleaner's
  `findAvailable` are not part of this model. The rename is one MOVE whose
  target name comes from an opaque `findAvailable` in the environment.
- `DirectoryTask.ReconcileRequests`: the free-name search is given the
  requests sent so far, which fix the server's answers, in place of the
  `existsTest` closure over the server. Which variant of the name it picks
  is not modelled, and the PROPFIND probes it sends are not in the trace.
- `rawurlencode`, `urlencode`, `urldecode` and `DateTimeImmutable::format('/Y/m')`
  are opaque functions. Taken times are kept abstract, as an epoch value
  or as EXIF text with its layout, and time zones are not modelled.
- PHP's loose comparison in `in_array` is modelled as exact string
  membership.
- PCRE `\w` and `\s` are approximated by ASCII letters, digits, `_` and
  ASCII whitespace.
- The `(int)` cast of the content-length header assumes a numeric header.
  A missing first value reads as 0.
- The PROPFIND answer is the set of member hrefs. Only its keys are used.
- The error log keeps its first line only. The file, line and stack trace
  are not modelled.
- `Metadata.SidecarTimestamp`: the sidecar JSON is decoded to two optional
  timestamps, so a malformed sidecar is not modelled.
- `DirectoryTask.UploadNew`: the second `takenTime` call on line 122 is
  answered from the memo filled by line 120, so it can never throw.
- `DirectoryTask.Reconcile` states the frame of one duplicate. The exact
  MOVE and COPY it sends are stated by `DirectoryTask.ReconcileRequests`.
- `DirectoryTask.ProcessFile` states the frame of one photo's step. Which
  branch runs, and what it sends, is stated by
  `DirectoryTask.KnownContentIsReconciled` (a known hash runs the duplicate
  loop) and `DirectoryTask.NewContentIsUploaded` (any other photo is
  uploaded).
- `DirectoryTask.UploadNew` states the failing lookup only. A lookup that
  succeeds leads to `DirectoryTask.CreateAndUpload`, and its outcome is
  stated by `DirectoryTask.UploadNewSucceedsIff` and
  `DirectoryTask.UploadNewTarget`.
- `DirectoryTask.CreateAndUpload` states the collection's failure and the
  prefix of the trace. The upload after it is stated by
  `DirectoryTask.UploadInto` and `DirectoryTask.CreateAndUploadTarget`.
- `DirectoryTask.UploadInto` states the upload's outcome as
  `RemoteFile.Upload` returns it. The requests inside the upload are stated
  by `RemoteFile.UploadRequests`.
- `DirectoryTask.KnownContentIsNotUploaded`: the PROPFIND probes that
  `RemoteFile::existsTest` sends before a rename (src/DirectoryTask.php:89)
  are missing from the trace, and so are any requests inside the MOVE
  helper beyond the MOVE itself. The property assumes that neither of
  them throws.
- `Metadata.Resolve`: a recognised EXIF text that `createFromFormat` cannot
  parse in its layout (src/Metadata.php:74-76) is not modelled. An example
  is a one-digit minute such as `2019:05:06 9:3:1`, or trailing text after
  the date. In the source `createFromFormat` then returns `false`, and
  returning it from `takenTime`, declared to return a `DateTimeImmutable`
  (line 19), raises a `TypeError`. That is not an `Exception`, so the job's
  `catch` (src/DirectoryTask.php:138) does not handle it: no error log is
  written and the whole run stops. The model treats the text as a value,
  so it never throws on that path.
- `Metadata.ExifTime`: for the same reason, the value it returns for such
  an unparsable text stands for a time that the source never produces.
- `Metadata.ResolveIsFirstValue`: the first-value characterisation holds
  for the model only. When the first recognised EXIF text does not parse,
  the source stops the run where the model returns that text as the value.
- `Metadata.IncrementSuffix`: in PCRE, `$` also matches just before a
  final newline (src/Metadata.php:28). The model matches only at the very
  end, so a base name ending in `(digits)` and a newline is not matched.
- `FileSystem.Glob`: the pattern is the photo path, or the directory,
  followed by one `*`. Glob metacharacters (`*`, `?`, `[`) inside that path
  are taken literally, where `glob` would expand them.
- `RemoteFile.Upload` states the taken-time lookup only. The requests it
  sends and its outcome are stated by `RemoteFile.UploadRequests` and
  `RemoteFile.UploadSucceedsIff`.

The code is followed where it differs from the intended behaviour:

- The album COPY after a rename uses the duplicate's path from before the
  MOVE (src/DirectoryTask.php:100 and 108).
- The exception text of `RemoteDirectory::create` uses `$response`, which
  is not defined there (src/RemoteDirectory.php:41). The status part of the
  message is empty.
- The HEAD-failure message of `upload` reports the PUT status
  (src/RemoteFile.php:24).
- A memoised `false` in `RemoteDirectory::create` would return `false` from
  a function declared to return `string`. The model returns the empty
  string, PHP's coercion. `create` never memoises `false`, so this branch
  is unreachable.
- A remote duplicate is renamed only when its name carries an increment. A
  plain remote name that differs from the local name is left as it is.

=== FILE: common.dfy ===
/** Shared building blocks: optional values, results carrying an exception
    message, and the handful of PHP string and path functions the migrator
    relies on (basename, dirname, explode, ltrim, rtrim, str_ends_with). */
module Common {

  datatype Option<T> = None | Some(value: T)

  /** A computation that either yields a value or throws an exception with
      the given message. */
  datatype Result<T> = Ok(value: T) | Err(message: string)

  /** `str_ends_with`. */
  predicate EndsWith(s: string, suffix: string) {
    |suffix| <= |s| && s[|s| - |suffix|..] == suffix
  }

  predicate IsDigit(c: char) {
    '0' <= c <= '9'
  }

  /** Position of the last occurrence of `c` in `s`. */
  function LastIndexOf(s: string, c: char): (r: Option<nat>)
    ensures r.None? <==> c !in s
    ensures r.Some? ==> r.value < |s| && s[r.value] == c && c !in s[r.value + 1..]
  {
    if |s| == 0 then None
    else if s[|s| - 1] == c then Some(|s| - 1)
    else
      var r := LastIndexOf(s[..|s| - 1], c);
      assert s == s[..|s| - 1] + [s[|s| - 1]];
      if r.Some? then
        assert s[r.value + 1..] == s[..|s| - 1][r.value + 1..] + [s[|s| - 1]];
        r
      else r
  }

  /** PHP `basename` for paths without a trailing slash: the text after the
      last `/`. */
  function Basename(path: string): (r: string)
    ensures '/' !in r
    ensures EndsWith(path, r)
    ensures '/' !in path ==> r == path
  {
    match LastIndexOf(path, '/')
    case None => path
    case Some(i) => path[i + 1..]
  }

  /** PHP `dirname` for paths without trailing or repeated slashes: the text
      before the last `/`, `/` when that slash is the first character and `.`
      when there is none. */
  function Dirname(path: string): string {
    match LastIndexOf(path, '/')
    case None => "."
    case Some(i) => if i == 0 then "/" else path[..i]
  }

  /** A directory path followed by one more `/`-free component has that
      directory as its dirname and the component as its basename. */
  lemma DirnameOfChild(dir: string, name: string)
    requires |dir| > 0 && '/' !in name
    ensures Dirname(dir + "/" + name) == dir
    ensures Basename(dir + "/" + name) == name
  {
    var p := dir + "/" + name;
    assert p[|dir|] == '/';
    assert p[|dir| + 1..] == name;
    assert p[..|dir|] == dir;
  }

  /** PHP `explode` on a single character. */
  function Split(s: string, c: char): (parts: seq<string>)
    ensures |parts| > 0
    ensures forall i :: 0 <= i < |parts| ==> c !in parts[i]
    ensures Join(parts, c) == s
  {
    if |s| == 0 then [""]
    else
      var rest := Split(s[1..], c);
      if s[0] == c then
        assert s == [c] + s[1..];
        [""] + rest
      else
        var parts := [[s[0]] + rest[0]] + rest[1..];
        assert parts[1..] == rest[1..];
        assert s == [s[0]] + s[1..];
        parts
  }

  /** PHP `implode`, the inverse of `Split`. */
  function Join(parts: seq<string>, c: char): string
    requires |parts| > 0
  {
    if |parts| == 1 then parts[0] else parts[0] + [c] + Join(parts[1..], c)
  }

  /** Splitting at the first separator: the text before it is the first
      part. */
  lemma {:induction false} SplitAround(a: string, b: string, c: char)
    requires c !in a
    ensures Split(a + [c] + b, c) == [a] + Split(b, c)
    decreases |a|
  {
    var s := a + [c] + b;
    if |a| == 0 {
      assert s[0] == c && s[1..] == b;
    } else {
      assert s[0] == a[0] && s[1..] == a[1..] + [c] + b;
      SplitAround(a[1..], b, c);
      assert [a[0]] + a[1..] == a;
    }
  }

  /** Text without the separator is a single part. */
  lemma {:induction false} SplitNoSeparator(s: string, c: char)
    requires c !in s
    ensures Split(s, c) == [s]
    decreases |s|
  {
    if |s| > 0 {
      SplitNoSeparator(s[1..], c);
      assert [s[0]] + s[1..] == s;
    }
  }

  /** PHP `ltrim` with a single character to strip. */
  function LTrim(s: string, c: char): (r: string)
    ensures |r| <= |s| && s[|s| - |r|..] == r
    ensures |r| == 0 || r[0] != c
    ensures forall i :: 0 <= i < |s| - |r| ==> s[i] == c
  {
    if |s| > 0 && s[0] == c then LTrim(s[1..], c) else s
  }

  /** The characters PHP's `rtrim` strips by default. */
  predicate IsTrimmed(c: char) {
    c == ' ' || c == '\t' || c == '\n' || c == '\r' || c == '\0' || c == '\U{000B}'
  }

  /** PHP `rtrim` with its default character set. */
  function RTrim(s: string): (r: string)
    ensures |r| <= |s| && s[..|r|] == r
    ensures |r| == 0 || !IsTrimmed(r[|r| - 1])
    ensures forall i :: |r| <= i < |s| ==> IsTrimmed(s[i])
  {
    if |s| > 0 && IsTrimmed(s[|s| - 1]) then RTrim(s[..|s| - 1]) else s
  }

  /** No value occurs twice. */
  predicate NoDuplicates<T(==)>(s: seq<T>) {
    forall i, j :: 0 <= i < j < |s| ==> s[i] != s[j]
  }

  function DigitChar(d: nat): char
    requires d < 10
  {
    "0123456789"[d]
  }

  /** Decimal rendering of a natural number, as PHP's string conversion. */
  function NatToString(n: nat): string
    decreases n
  {
    if n < 10 then [DigitChar(n)] else NatToString(n / 10) + [DigitChar(n % 10)]
  }

  /** Decimal rendering of an integer, as PHP's string conversion. */
  function IntToString(i: int): string {
    if i < 0 then "-" + NatToString(-i) else NatToString(i)
  }
}

=== FILE: directory_task.dfy ===
/** `DirectoryTask`: the job run on one exported album directory. Every
    photo is hashed; a photo whose content is already on the server is only
    reconciled (a remote copy whose name carries an increment and still
    differs from the local name once increments are stripped is renamed,
    and each remote copy not yet in the album is copied there), any other
    photo is uploaded
    into a year/month collection. The first exception ends the job. */
module DirectoryTask {
  import opened Common
  import opened FileSystem
  import opened Remote
  import Increment
  import Metadata
  import RemoteDirectory
  import RemoteFile

  // ---------------------------------------------------------------------
  // Duplicate classification
  // ---------------------------------------------------------------------

  /** What the job does about a remote file with the same content, in the
      order of the tests of DirectoryTask.php lines 80-102. */
  datatype Verdict =
    | Identical             // the names are equal
    | LocalIncremented      // the local name carries an increment
    | RemoteNotIncremented  // the remote name carries none
    | SameStem              // equal once increments are stripped
    | Rename                // rename the remote file

  function Classify(local: string, remote: string): Verdict {
    if local == remote then Identical
    else if Increment.ContainsIncrement(local) then LocalIncremented
    else if !Increment.ContainsIncrement(remote) then RemoteNotIncremented
    else if Increment.SameWithoutIncrement(local, remote) then SameStem
    else Rename
  }

  /** The remote file is renamed exactly when stripping increments leaves
      the local name as it is, changes the remote name, and the two still
      differ afterwards. */
  lemma RenameIffStripped(local: string, remote: string)
    ensures Classify(local, remote) == Rename <==>
      && Increment.StripIncrements(local) == local
      && Increment.StripIncrements(remote) != remote
      && Increment.StripIncrements(remote) != local
  {
    Increment.StripChangesIffIncrement(local);
    Increment.StripChangesIffIncrement(remote);
  }

  /** `IMG_1(2).jpg` on the server is the same photo as a local
      `IMG_1.jpg`, so it is left as it is. */
  lemma IncrementedCopyStays(stem: string, g: string, ext: string)
    requires '(' !in stem && Increment.IsIncrementGroup(g) && '(' !in ext
    ensures Classify(stem + ext, stem + g + ext) == SameStem
  {
    Increment.StripStemGroupTail(stem, g, ext);
    assert stem + g + ext == stem + (g + ext);
    NoParenInConcat(stem, ext);
    Increment.NoParenNoIncrement(stem + ext);
    Increment.StripWithoutIncrement(stem + ext);
    Increment.StripChangesIffIncrement(stem + g + ext);
  }

  /** An incremented remote name whose stem differs from the plain local
      name is renamed after the local name. */
  lemma IncrementedOtherIsRenamed(local: string, stem: string, g: string, ext: string)
    requires '(' !in local && '(' !in stem && Increment.IsIncrementGroup(g) && '(' !in ext
    requires local != stem + ext
    ensures Classify(local, stem + g + ext) == Rename
  {
    Increment.StripStemGroupTail(stem, g, ext);
    assert stem + g + ext == stem + (g + ext);
    assert (stem + g + ext)[|stem|] == '(';
    Increment.NoParenNoIncrement(local);
    Increment.StripWithoutIncrement(local);
    Increment.StripChangesIffIncrement(stem + g + ext);
  }

  /** Two different names without `(` are never renamed into each other. */
  lemma PlainNamesStay(local: string, remote: string)
    requires '(' !in local && '(' !in remote && local != remote
    ensures Classify(local, remote) == RemoteNotIncremented
  {
    Increment.NoParenNoIncrement(local);
    Increment.NoParenNoIncrement(remote);
  }

  lemma NoParenInConcat(a: string, b: string)
    requires '(' !in a && '(' !in b
    ensures '(' !in a + b
  {
  }

  // ---------------------------------------------------------------------
  // The job's inputs and state
  // ---------------------------------------------------------------------

  /** A remote file with the same content as a local one: its (URL-encoded)
      path and its file id. */
  datatype Duplicate = Duplicate(path: string, fileId: string)

  /** The job's configuration, and the library functions it calls that
      this model keeps opaque: URL encoding and decoding, the `/Y/m`
      rendering of a taken time, and the free-name search of the media
      cleaner package. The search probes the server through `existsTest`,
      so it is given the requests sent so far (the server's state, since the
      server answers as a function of them), the remote directory and the
      wanted name. */
  datatype Env = Env(
    filesBase: string,
    albumsBase: string,
    userAlbums: seq<string>,
    // content hash to the remote files holding that content, in order
    remoteFiles: map<string, seq<Duplicate>>,
    rawUrlEncode: string -> string,
    urlEncode: string -> string,
    urlDecode: string -> string,
    yearMonth: Metadata.TakenTime -> string,
    findAvailable: (seq<Request>, string, string) -> string
  )

  /** Everything the per-file loop reads and changes: the trace, the two
      memos that outlive the job, the album's member identifiers, and two
      records kept for the proofs: the identifiers added to the album
      while reconciling duplicates, and the files hashed, in order. */
  datatype State = State(
    log: seq<Request>,
    times: map<string, Metadata.TakenTime>,
    dirs: map<string, bool>,
    albumPhotos: set<string>,
    copied: seq<string>,
    hashed: seq<string>
  )

  /** The album collection of a directory: the directory's name must be
      one of the user's albums. */
  function AlbumPath(env: Env, origin: string): (r: Option<string>)
    ensures r.Some? <==> Basename(origin) in env.userAlbums
    ensures r.Some? ==> r.value == env.albumsBase + "/" + env.rawUrlEncode(Basename(origin))
  {
    var name := Basename(origin);
    if name in env.userAlbums then Some(env.albumsBase + "/" + env.rawUrlEncode(name)) else None
  }

  /** The photos of a directory: the regular files `glob` lists directly in it,
      in listing order, except the `.json` sidecars. */
  function PhotoFiles(fs: Fs, origin: string): (r: seq<string>)
    ensures forall p :: p in r <==>
      p in fs.listing && GlobMatch(p, origin + "/", "") && fs.isFile(p) && !EndsWith(p, ".json")
  {
    Photos(fs, Glob(fs.listing, origin + "/", ""))
  }

  /** A path the job treats as a photo of `origin`. */
  predicate IsPhoto(fs: Fs, origin: string, p: string) {
    GlobMatch(p, origin + "/", "") && fs.isFile(p) && !EndsWith(p, ".json")
  }

  /** The photos of a listing in a single pass, in listing order. */
  function PhotoFilter(fs: Fs, origin: string, listing: seq<string>): seq<string> {
    if |listing| == 0 then []
    else if IsPhoto(fs, origin, listing[0]) then [listing[0]] + PhotoFilter(fs, origin, listing[1..])
    else PhotoFilter(fs, origin, listing[1..])
  }

  /** Globbing, then dropping non-files and sidecars, keeps the photos in
      the order the directory lists them. */
  lemma PhotoFilesInListingOrder(fs: Fs, origin: string)
    ensures PhotoFiles(fs, origin) == PhotoFilter(fs, origin, fs.listing)
  {
    PhotosOfGlob(fs, origin, fs.listing);
  }

  lemma {:induction false} PhotosOfGlob(fs: Fs, origin: string, listing: seq<string>)
    ensures Photos(fs, Glob(listing, origin + "/", "")) == PhotoFilter(fs, origin, listing)
    decreases |listing|
  {
    if |listing| > 0 {
      var rest := Glob(listing[1..], origin + "/", "");
      PhotosOfGlob(fs, origin, listing[1..]);
      if GlobMatch(listing[0], origin + "/", "") {
        var g := [listing[0]] + rest;
        assert Glob(listing, origin + "/", "") == g;
        assert g[0] == listing[0] && g[1..] == rest;
      }
    }
  }

  function Photos(fs: Fs, paths: seq<string>): (r: seq<string>)
    ensures forall p :: p in r <==> p in paths && fs.isFile(p) && !EndsWith(p, ".json")
  {
    if |paths| == 0 then []
    else
      var rest := Photos(fs, paths[1..]);
      assert forall p :: p in paths <==> p == paths[0] || p in paths[1..];
      if fs.isFile(paths[0]) && !EndsWith(paths[0], ".json") then [paths[0]] + rest else rest
  }

  // ---------------------------------------------------------------------
  // A photo whose content is already on the server
  // ---------------------------------------------------------------------

  /** The identifier under which the album is checked for a duplicate. */
  function AlbumId(album: string, d: Duplicate, remoteName: string): string {
    album + "/" + d.fileId + "-" + remoteName
  }

  /** The name of a duplicate: the last component of its decoded path. */
  function RemoteName(env: Env, d: Duplicate): string {
    Basename(env.urlDecode(d.path))
  }

  /** The MOVE that renames a duplicate after the local file: into the
      same directory, under the first variant of the local name that is free
      on the server as the trace `log` leaves it. */
  function RenameOf(env: Env, log: seq<Request>, d: Duplicate, local: string): Request {
    var dir := Dirname(d.path);
    Move(d.path, dir + "/" + env.urlEncode(env.findAvailable(log, dir, local)))
  }

  /** One iteration of the loop of DirectoryTask.php lines 76-116. The
      COPY into the album uses the duplicate's path from before any rename,
      as the source does. */
  function Reconcile(env: Env, album: Option<string>, local: string, st: State, d: Duplicate): (r: State)
    ensures r.times == st.times && r.dirs == st.dirs && r.hashed == st.hashed
    ensures |st.log| <= |r.log| <= |st.log| + 2 && r.log[..|st.log|] == st.log
    ensures OnlyRenamesAndCopies(r.log[|st.log|..])
    ensures album.None? ==> r.albumPhotos == st.albumPhotos && r.copied == st.copied
  {
    var remoteName := RemoteName(env, d);
    var log := if Classify(local, remoteName) == Rename then st.log + [RenameOf(env, st.log, d, local)] else st.log;
    match album
    case None => st.(log := log)
    case Some(a) =>
      var id := AlbumId(a, d, remoteName);
      if id in st.albumPhotos then st.(log := log)
      else
        st.(log := log + [Copy(d.path, a + "/" + remoteName)],
            albumPhotos := st.albumPhotos + {id},
            copied := st.copied + [id])
  }

  /** Requests of the reconciliation path only. */
  predicate OnlyRenamesAndCopies(reqs: seq<Request>) {
    forall i :: 0 <= i < |reqs| ==> reqs[i].Move? || reqs[i].Copy?
  }

  /** A duplicate is renamed exactly when the classification says so, into
      its own directory under the encoded variant of the local name that is
      free on the server as the requests so far leave it,
      and it is copied, from its path before any rename, into the album
      under its remote name exactly when its identifier is not listed there
      yet; afterwards the identifier is listed and, if it was copied,
      recorded once more as copied. */
  lemma ReconcileRequests(env: Env, album: Option<string>, local: string, st: State, d: Duplicate)
    ensures var r := Reconcile(env, album, local, st, d);
      var name := RemoteName(env, d);
      var dir := Dirname(d.path);
      var move := if Classify(local, name) == Rename
        then [Move(d.path, dir + "/" + env.urlEncode(env.findAvailable(st.log, dir, local)))] else [];
      var copy := if album.Some? && AlbumId(album.value, d, name) !in st.albumPhotos
        then [Copy(d.path, album.value + "/" + name)] else [];
      && r.log == st.log + move + copy
      && (album.Some? ==>
            var id := AlbumId(album.value, d, RemoteName(env, d));
            && r.albumPhotos == st.albumPhotos + {id}
            && (if id in st.albumPhotos then r.copied == st.copied else r.copied == st.copied + [id]))
  {
  }

  /** The loop over all duplicates of one hash. */
  function ReconcileAll(env: Env, album: Option<string>, local: string, st: State, ds: seq<Duplicate>): (r: State)
    ensures r.times == st.times && r.dirs == st.dirs && r.hashed == st.hashed
    ensures |st.log| <= |r.log| && r.log[..|st.log|] == st.log
    ensures OnlyRenamesAndCopies(r.log[|st.log|..])
    ensures album.None? ==> r.albumPhotos == st.albumPhotos && r.copied == st.copied
    decreases |ds|
  {
    if |ds| == 0 then
      assert st.log[|st.log|..] == [];
      st
    else
      var next := Reconcile(env, album, local, st, ds[0]);
      var r := ReconcileAll(env, album, local, next, ds[1..]);
      OnlyRenamesAndCopiesJoin(st.log, next.log, r.log);
      r
  }

  lemma OnlyRenamesAndCopiesJoin(a: seq<Request>, b: seq<Request>, c: seq<Request>)
    requires |a| <= |b| <= |c| && b[..|a|] == a && c[..|b|] == b
    requires OnlyRenamesAndCopies(b[|a|..]) && OnlyRenamesAndCopies(c[|b|..])
    ensures c[..|a|] == a && OnlyRenamesAndCopies(c[|a|..])
  {
    forall i | 0 <= i < |c| - |a|
      ensures c[|a|..][i].Move? || c[|a|..][i].Copy?
    {
      if |a| + i < |b| {
        assert c[|a|..][i] == b[|a|..][i];
      } else {
        assert c[|a|..][i] == c[|b|..][|a| + i - |b|];
      }
    }
  }

  /** Album additions while reconciling stay unique: every identifier
      added was absent from the album as listed at the start, none is added
      twice, and the album's members are exactly the initial ones and the
      added ones. */
  ghost predicate CopiedOnce(initial: set<string>, st: State) {
    && NoDuplicates(st.copied)
    && (forall i :: 0 <= i < |st.copied| ==> st.copied[i] !in initial)
    && (forall id :: id in st.albumPhotos <==> id in initial || id in st.copied)
  }

  lemma ReconcileKeepsCopiedOnce(env: Env, album: Option<string>, local: string, st: State, d: Duplicate, initial: set<string>)
    requires CopiedOnce(initial, st)
    ensures CopiedOnce(initial, Reconcile(env, album, local, st, d))
  {
  }

  lemma {:induction false} ReconcileAllKeepsCopiedOnce(env: Env, album: Option<string>, local: string, st: State, ds: seq<Duplicate>, initial: set<string>)
    requires CopiedOnce(initial, st)
    ensures CopiedOnce(initial, ReconcileAll(env, album, local, st, ds))
    decreases |ds|
  {
    if |ds| > 0 {
      ReconcileKeepsCopiedOnce(env, album, local, st, ds[0], initial);
      ReconcileAllKeepsCopiedOnce(env, album, local, Reconcile(env, album, local, st, ds[0]), ds[1..], initial);
    }
  }

  /** After reconciling, every duplicate's identifier is in the album. */
  lemma ReconcileAllFillsAlbum(env: Env, album: string, local: string, st: State, ds: seq<Duplicate>)
    ensures var r := ReconcileAll(env, Some(album), local, st, ds);
      && st.albumPhotos <= r.albumPhotos
      && forall k :: 0 <= k < |ds| ==> AlbumId(album, ds[k], RemoteName(env, ds[k])) in r.albumPhotos
  {
    ReconcileAllGrowsAlbum(env, Some(album), local, st, ds);
    forall k | 0 <= k < |ds|
      ensures AlbumId(album, ds[k], RemoteName(env, ds[k])) in ReconcileAll(env, Some(album), local, st, ds).albumPhotos
    {
      ReconcileAllListsDuplicate(env, album, local, st, ds, k);
    }
  }

  /** Reconciling never removes an album member. */
  lemma {:induction false} ReconcileAllGrowsAlbum(env: Env, album: Option<string>, local: string, st: State, ds: seq<Duplicate>)
    ensures st.albumPhotos <= ReconcileAll(env, album, local, st, ds).albumPhotos
    decreases |ds|
  {
    if |ds| > 0 {
      var next := Reconcile(env, album, local, st, ds[0]);
      ReconcileRequests(env, album, local, st, ds[0]);
      ReconcileAllGrowsAlbum(env, album, local, next, ds[1..]);
    }
  }

  /** The `k`-th duplicate's identifier is in the album afterwards. */
  lemma {:induction false} ReconcileAllListsDuplicate(env: Env, album: string, local: string, st: State, ds: seq<Duplicate>, k: nat)
    requires k < |ds|
    ensures AlbumId(album, ds[k], RemoteName(env, ds[k])) in ReconcileAll(env, Some(album), local, st, ds).albumPhotos
    decreases |ds|
  {
    var next := Reconcile(env, Some(album), local, st, ds[0]);
    if k == 0 {
      ReconcileRequests(env, Some(album), local, st, ds[0]);
      ReconcileAllGrowsAlbum(env, Some(album), local, next, ds[1..]);
    } else {
      ReconcileAllListsDuplicate(env, album, local, next, ds[1..], k - 1);
      assert ds[1..][k - 1] == ds[k];
    }
  }

  /** The source paths of the MOVE requests of a trace, in order. */
  function MoveSources(reqs: seq<Request>): seq<string> {
    if |reqs| == 0 then [] else MoveSource(reqs[0]) + MoveSources(reqs[1..])
  }

  /** The source path of a MOVE, as a list of at most one path. */
  function MoveSource(q: Request): seq<string> {
    if q.Move? then [q.path] else []
  }

  /** The paths of the duplicates whose path `keep` accepts, in order. */
  function PathsWhere(ds: seq<Duplicate>, keep: string -> bool): seq<string> {
    if |ds| == 0 then [] else (if keep(ds[0].path) then [ds[0].path] else []) + PathsWhere(ds[1..], keep)
  }

  /** A path is among those kept exactly when some duplicate has it and
      `keep` accepts it; duplicates with one path share one answer. */
  lemma {:induction false} PathsWhereIff(ds: seq<Duplicate>, keep: string -> bool, k: nat)
    requires k < |ds|
    ensures ds[k].path in PathsWhere(ds, keep) <==> keep(ds[k].path)
    decreases |ds|
  {
    if k > 0 {
      PathsWhereIff(ds[1..], keep, k - 1);
      assert ds[1..][k - 1] == ds[k];
    } else if ds[0].path in PathsWhere(ds[1..], keep) {
      PathsWhereKept(ds[1..], keep, ds[0].path);
    }
  }

  lemma {:induction false} PathsWhereKept(ds: seq<Duplicate>, keep: string -> bool, p: string)
    requires p in PathsWhere(ds, keep)
    ensures keep(p)
    decreases |ds|
  {
    if !(keep(ds[0].path) && p == ds[0].path) {
      PathsWhereKept(ds[1..], keep, p);
    }
  }

  /** Whether the duplicate at a remote path is to be renamed after the
      local file. */
  function RenameDue(env: Env, local: string): string -> bool {
    p => Classify(local, Basename(env.urlDecode(p))) == Rename
  }

  /** The paths of the duplicates the classification marks `Rename`, in
      order. */
  function RenameSources(env: Env, local: string, ds: seq<Duplicate>): seq<string> {
    PathsWhere(ds, RenameDue(env, local))
  }

  lemma RenameSourcesCons(env: Env, local: string, ds: seq<Duplicate>)
    requires |ds| > 0
    ensures RenameSources(env, local, ds) == RenameIfDue(env, local, ds[0]) + RenameSources(env, local, ds[1..])
  {
    assert RenameDue(env, local)(ds[0].path) == (Classify(local, RemoteName(env, ds[0])) == Rename);
  }

  /** The path of one duplicate if it is to be renamed. */
  function RenameIfDue(env: Env, local: string, d: Duplicate): seq<string> {
    if Classify(local, RemoteName(env, d)) == Rename then [d.path] else []
  }

  /** Every MOVE from index `from` on renames its source, in its own
      directory, to the free variant of `local` that the search finds on
      the server as the requests before it leave it. */
  ghost predicate RenamesSeeTrace(env: Env, local: string, log: seq<Request>, from: nat) {
    forall i :: from <= i < |log| && log[i].Move? ==>
      log[i].destination == Dirname(log[i].path) + "/" + env.urlEncode(env.findAvailable(log[..i], Dirname(log[i].path), local))
  }

  lemma {:induction false} MoveSourcesAppend(a: seq<Request>, b: seq<Request>)
    ensures MoveSources(a + b) == MoveSources(a) + MoveSources(b)
    decreases |a|
  {
    if |a| > 0 {
      assert (a + b)[1..] == a[1..] + b;
      MoveSourcesAppend(a[1..], b);
    } else {
      assert a + b == b;
    }
  }

  /** The loop over a hash's duplicates moves exactly the duplicates the
      classification marks `Rename`, in the duplicates' order, and nothing
      else; each MOVE's target is looked up on the server as the requests
      before it leave it, so a later rename sees an earlier one. */
  lemma {:induction false} ReconcileAllRenames(env: Env, album: Option<string>, local: string, st: State, ds: seq<Duplicate>)
    ensures var r := ReconcileAll(env, album, local, st, ds);
      && MoveSources(r.log[|st.log|..]) == RenameSources(env, local, ds)
      && RenamesSeeTrace(env, local, r.log, |st.log|)
    decreases |ds|
  {
    var r := ReconcileAll(env, album, local, st, ds);
    if |ds| == 0 {
      assert r.log[|st.log|..] == [];
    } else {
      var next := Reconcile(env, album, local, st, ds[0]);
      ReconcileRenames(env, album, local, st, ds[0]);
      ReconcileAllRenames(env, album, local, next, ds[1..]);
      RenameSourcesCons(env, local, ds);
      SplitSent(st.log, next.log, r.log);
      MoveSourcesAppend(next.log[|st.log|..], r.log[|next.log|..]);
      RenamesSeeTraceJoin(env, local, st.log, next.log, r.log);
    }
  }

  /** One duplicate moves exactly its own path when it is due, to the
      target looked up on the server as the trace before it leaves it. */
  lemma ReconcileRenames(env: Env, album: Option<string>, local: string, st: State, d: Duplicate)
    ensures var r := Reconcile(env, album, local, st, d);
      && MoveSources(r.log[|st.log|..]) == RenameIfDue(env, local, d)
      && RenamesSeeTrace(env, local, r.log, |st.log|)
  {
    ReconcileRequests(env, album, local, st, d);
    var r := Reconcile(env, album, local, st, d);
    var name := RemoteName(env, d);
    var move := if Classify(local, name) == Rename then [RenameOf(env, st.log, d, local)] else [];
    var copy := if album.Some? && AlbumId(album.value, d, name) !in st.albumPhotos
      then [Copy(d.path, album.value + "/" + name)] else [];
    assert r.log[|st.log|..] == move + copy;
    MoveSourcesAppend(move, copy);
    assert MoveSources(copy) == [];
    forall i | |st.log| <= i < |r.log| && r.log[i].Move?
      ensures r.log[i].destination == Dirname(r.log[i].path) + "/" + env.urlEncode(env.findAvailable(r.log[..i], Dirname(r.log[i].path), local))
    {
      assert i == |st.log| && r.log[i] == RenameOf(env, st.log, d, local);
      assert r.log[..i] == st.log;
    }
  }

  lemma RenamesSeeTraceJoin(env: Env, local: string, a: seq<Request>, b: seq<Request>, c: seq<Request>)
    requires |a| <= |b| <= |c| && c[..|b|] == b
    requires RenamesSeeTrace(env, local, b, |a|) && RenamesSeeTrace(env, local, c, |b|)
    ensures RenamesSeeTrace(env, local, c, |a|)
  {
    forall i | |a| <= i < |b| && c[i].Move?
      ensures c[i].destination == Dirname(c[i].path) + "/" + env.urlEncode(env.findAvailable(c[..i], Dirname(c[i].path), local))
    {
      assert c[i] == b[i] && c[..i] == b[..i];
    }
  }

  /** Two duplicates to be renamed, outside any album: the second target is
      looked up on the server after the first MOVE, so it can avoid the name
      the first one took. */
  lemma SecondRenameSeesFirst(env: Env, local: string, st: State, d1: Duplicate, d2: Duplicate)
    requires Classify(local, RemoteName(env, d1)) == Rename && Classify(local, RemoteName(env, d2)) == Rename
    ensures var first := RenameOf(env, st.log, d1, local);
      ReconcileAll(env, None, local, st, [d1, d2]).log == st.log + [first, RenameOf(env, st.log + [first], d2, local)]
  {
    var next := Reconcile(env, None, local, st, d1);
    assert [d1, d2][1..] == [d2] && [d2][1..] == [];
    assert ReconcileAll(env, None, local, next, [d2]) == Reconcile(env, None, local, next, d2);
  }

  /** What a later step sends follows what an earlier one sent. */
  lemma SplitSent(a: seq<Request>, b: seq<Request>, c: seq<Request>)
    requires |a| <= |b| <= |c| && b[..|a|] == a && c[..|b|] == b
    ensures c[|a|..] == b[|a|..] + c[|b|..]
  {
  }

  /** A duplicate's path is among those to be renamed exactly when its
      classification says `Rename`: duplicates with one path share one
      name. */
  lemma RenameListedIff(env: Env, local: string, ds: seq<Duplicate>, k: nat)
    requires k < |ds|
    ensures ds[k].path in RenameSources(env, local, ds) <==> Classify(local, RemoteName(env, ds[k])) == Rename
  {
    PathsWhereIff(ds, RenameDue(env, local), k);
    assert RenameDue(env, local)(ds[k].path) == (Classify(local, RemoteName(env, ds[k])) == Rename);
  }

  // ---------------------------------------------------------------------
  // A photo that is not on the server yet
  // ---------------------------------------------------------------------

  /** The outcome of processing photos: the message of the exception that
      stopped the loop, if any, and the state reached. */
  datatype Step = Step(error: Option<string>, st: State)

  /** DirectoryTask.php lines 120-136: look up the taken time (twice, the
      second answer coming from the memo), make the year/month collection,
      upload under the URL-encoded name, and copy into the album if there
      is one. Each of the first three steps can throw. */
  function UploadNew(env: Env, srv: Server, fs: Fs, album: Option<string>, st: State, path: string): (r: Step)
    ensures r.st.albumPhotos == st.albumPhotos && r.st.copied == st.copied && r.st.hashed == st.hashed
    ensures |st.log| <= |r.st.log| && r.st.log[..|st.log|] == st.log
    ensures var look := Metadata.TakenTimeOf(st.times, fs, path);
      look.time.Err? ==> r.error == Some(look.time.message) && r.st.log == st.log && r.st.times == look.cache
  {
    var first := Metadata.TakenTimeOf(st.times, fs, path);
    match first.time
    case Err(msg) => Step(Some(msg), st.(times := first.cache))
    case Ok(_) =>
      var second := Metadata.TakenTimeOf(first.cache, fs, path);
      CreateAndUpload(env, srv, fs, album, st.(times := second.cache), path)
  }

  /** DirectoryTask.php lines 122-136 once the taken time is memoised:
      make the collection named by that time, then upload into it. */
  function CreateAndUpload(env: Env, srv: Server, fs: Fs, album: Option<string>, st: State, path: string): (r: Step)
    requires path in st.times
    ensures r.st.albumPhotos == st.albumPhotos && r.st.copied == st.copied && r.st.hashed == st.hashed
    ensures r.st.times == st.times
    ensures |st.log| <= |r.st.log| && r.st.log[..|st.log|] == st.log
    ensures var dir := RemoteDirectory.Create(srv, st.log, st.dirs, env.filesBase, env.yearMonth(st.times[path]));
      && (dir.result.Err? ==> r.error == Some(dir.result.message) && r.st.log == dir.log)
      && (dir.result.Ok? ==> r.st.dirs == dir.cache && |dir.log| <= |r.st.log| && r.st.log[..|dir.log|] == dir.log)
  {
    var dir := RemoteDirectory.Create(srv, st.log, st.dirs, env.filesBase, env.yearMonth(st.times[path]));
    var made := st.(log := dir.log, dirs := dir.cache);
    match dir.result
    case Err(msg) => Step(Some(msg), made)
    case Ok(dirPath) => UploadInto(env, srv, fs, album, made, path, dirPath)
  }

  /** A new photo keeps the directory memo free of failures, and once it
      is through its taken time is memoised. */
  lemma UploadNewKeepsMemos(env: Env, srv: Server, fs: Fs, album: Option<string>, st: State, path: string)
    ensures var r := UploadNew(env, srv, fs, album, st, path);
      && (RemoteDirectory.OnlySuccesses(st.dirs) ==> RemoteDirectory.OnlySuccesses(r.st.dirs))
      && (r.error.None? ==> path in r.st.times)
  {
  }

  /** A new photo goes through exactly when its taken time resolves, the
      collection of that time is made, and the upload into it is verified;
      the first of these to fail ends the job. */
  lemma UploadNewSucceedsIff(env: Env, srv: Server, fs: Fs, album: Option<string>, st: State, path: string)
    ensures var r := UploadNew(env, srv, fs, album, st, path);
      var look := Metadata.TakenTimeOf(st.times, fs, path);
      r.error.None? <==>
        && look.time.Ok?
        && var dir := RemoteDirectory.Create(srv, st.log, st.dirs, env.filesBase, env.yearMonth(look.time.value));
           && dir.result.Ok?
           && RemoteFile.Upload(srv, dir.log, fs, look.cache, path, dir.result.value + "/" + env.rawUrlEncode(Basename(path))).result.Ok?
  {
    var look := Metadata.TakenTimeOf(st.times, fs, path);
    if look.time.Ok? {
      var next := st.(times := look.cache);
      assert Metadata.TakenTimeOf(look.cache, fs, path) == Metadata.Lookup(look.time, look.cache);
      assert next.times[path] == look.time.value;
      var dir := RemoteDirectory.Create(srv, st.log, st.dirs, env.filesBase, env.yearMonth(look.time.value));
      if dir.result.Ok? {
        assert CreateAndUpload(env, srv, fs, album, next, path)
          == UploadInto(env, srv, fs, album, next.(log := dir.log, dirs := dir.cache), path, dir.result.value);
      }
    }
  }

  /** DirectoryTask.php lines 124-136: the upload into the collection made
      for the photo, then the copy into the album. */
  function UploadInto(env: Env, srv: Server, fs: Fs, album: Option<string>, st: State, path: string, dirPath: string): (r: Step)
    requires path in st.times
    ensures r.st.albumPhotos == st.albumPhotos && r.st.copied == st.copied && r.st.hashed == st.hashed
    ensures r.st.dirs == st.dirs && r.st.times == st.times
    ensures |st.log| <= |r.st.log| && r.st.log[..|st.log|] == st.log
    ensures var remoteName := env.rawUrlEncode(Basename(path));
      var target := dirPath + "/" + remoteName;
      var up := RemoteFile.Upload(srv, st.log, fs, st.times, path, target);
      && (r.error.Some? <==> up.result.Err?)
      && (up.result.Err? ==> r.error == Some(up.result.message) && r.st.log == up.log)
      && (up.result.Ok? && album.None? ==> r.st.log == up.log)
      && (up.result.Ok? && album.Some? ==> r.st.log == up.log + [Copy(target, album.value + "/" + remoteName)])
  {
    var remoteName := env.rawUrlEncode(Basename(path));
    var target := dirPath + "/" + remoteName;
    var up := RemoteFile.Upload(srv, st.log, fs, st.times, path, target);
    var next := st.(log := up.log);
    if up.result.Err? then Step(Some(up.result.message), next)
    else if album.None? then Step(None, next)
    else Step(None, next.(log := next.log + [Copy(target, album.value + "/" + remoteName)]))
  }

  /** The PUT of a new photo goes to the year/month collection of its taken
      time, under its URL-encoded name, with its modification time, taken
      time and size; provided the directory memo holds only successes, as
      `RemoteDirectory::create` keeps it. */
  lemma UploadNewTarget(env: Env, srv: Server, fs: Fs, album: Option<string>, st: State, path: string)
    requires RemoteDirectory.OnlySuccesses(st.dirs)
    requires UploadNew(env, srv, fs, album, st, path).error.None?
    ensures var r := UploadNew(env, srv, fs, album, st, path);
      var t := r.st.times[path];
      var target := env.filesBase + env.yearMonth(t) + "/" + env.rawUrlEncode(Basename(path));
      && Put(target, fs.mtime(path), t, fs.size(path)) in r.st.log[|st.log|..]
      && (album.Some? ==>
            r.st.log[|r.st.log| - 1] == Copy(target, album.value + "/" + env.rawUrlEncode(Basename(path))))
  {
    var first := Metadata.TakenTimeOf(st.times, fs, path);
    var second := Metadata.TakenTimeOf(first.cache, fs, path);
    CreateAndUploadTarget(env, srv, fs, album, st.(times := second.cache), path);
  }

  lemma CreateAndUploadTarget(env: Env, srv: Server, fs: Fs, album: Option<string>, st: State, path: string)
    requires path in st.times && RemoteDirectory.OnlySuccesses(st.dirs)
    requires CreateAndUpload(env, srv, fs, album, st, path).error.None?
    ensures var r := CreateAndUpload(env, srv, fs, album, st, path);
      var t := st.times[path];
      var target := env.filesBase + env.yearMonth(t) + "/" + env.rawUrlEncode(Basename(path));
      && Put(target, fs.mtime(path), t, fs.size(path)) in r.st.log[|st.log|..]
      && (album.Some? ==>
            r.st.log[|r.st.log| - 1] == Copy(target, album.value + "/" + env.rawUrlEncode(Basename(path))))
  {
    var t := st.times[path];
    var dir := RemoteDirectory.Create(srv, st.log, st.dirs, env.filesBase, env.yearMonth(t));
    assert dir.result == Ok(env.filesBase + env.yearMonth(t));
    var made := st.(log := dir.log, dirs := dir.cache);
    assert CreateAndUpload(env, srv, fs, album, st, path) == UploadInto(env, srv, fs, album, made, path, dir.result.value);
    UploadIntoTarget(env, srv, fs, album, made, path, dir.result.value);
  }

  /** An upload into a collection that goes through starts with the PUT to
      the collection plus the encoded name. */
  lemma UploadIntoTarget(env: Env, srv: Server, fs: Fs, album: Option<string>, st: State, path: string, dirPath: string)
    requires path in st.times
    requires UploadInto(env, srv, fs, album, st, path, dirPath).error.None?
    ensures var r := UploadInto(env, srv, fs, album, st, path, dirPath);
      var t := st.times[path];
      |st.log| < |r.st.log| && r.st.log[|st.log|] == Put(dirPath + "/" + env.rawUrlEncode(Basename(path)), fs.mtime(path), t, fs.size(path))
  {
    var target := dirPath + "/" + env.rawUrlEncode(Basename(path));
    RemoteFile.UploadRequests(srv, st.log, fs, st.times, path, target);
  }

  /** One photo: hash it, then reconcile it with the remote files of the
      same content or, when there are none, upload it. */
  function ProcessFile(env: Env, srv: Server, fs: Fs, album: Option<string>, st: State, path: string): (r: Step)
    ensures r.st.hashed == st.hashed + [path]
    ensures |st.log| <= |r.st.log| && r.st.log[..|st.log|] == st.log
    ensures RemoteDirectory.OnlySuccesses(st.dirs) ==> RemoteDirectory.OnlySuccesses(r.st.dirs)
    ensures album.None? ==> r.st.albumPhotos == st.albumPhotos && r.st.copied == st.copied
  {
    var hashed := st.(hashed := st.hashed + [path]);
    var hash := fs.md5(path);
    if hash in env.remoteFiles then
      Step(None, ReconcileAll(env, album, Basename(path), hashed, env.remoteFiles[hash]))
    else
      UploadNewKeepsMemos(env, srv, fs, album, hashed, path);
      UploadNew(env, srv, fs, album, hashed, path)
  }

  /** A photo whose content is already on the server causes no PUT, HEAD
      or MKCOL, no taken-time lookup and no collection creation: only
      renames and album copies, and the loop goes on. */
  lemma KnownContentIsNotUploaded(env: Env, srv: Server, fs: Fs, album: Option<string>, st: State, path: string)
    requires fs.md5(path) in env.remoteFiles
    ensures var r := ProcessFile(env, srv, fs, album, st, path);
      && r.error.None?
      && r.st.times == st.times && r.st.dirs == st.dirs
      && forall q :: q in r.st.log[|st.log|..] ==> q.Move? || q.Copy?
  {
    var r := ProcessFile(env, srv, fs, album, st, path);
    var sent := r.st.log[|st.log|..];
    assert OnlyRenamesAndCopies(sent);
    forall q | q in sent
      ensures q.Move? || q.Copy?
    {
      var i :| 0 <= i < |sent| && sent[i] == q;
    }
  }

  /** A photo whose content is already on the server runs the duplicate
      loop of DirectoryTask.php lines 74-118 and nothing else: the MOVEs
      sent move exactly the duplicates the classification marks, in order,
      each to the free name found on the server as the requests before it
      leave it, and with an album every duplicate's identifier ends up
      listed. The first clause speaks of that loop's result, which the last
      clause equates with the step. */
  lemma KnownContentIsReconciled(env: Env, srv: Server, fs: Fs, album: Option<string>, st: State, path: string)
    requires fs.md5(path) in env.remoteFiles
    ensures var ds := env.remoteFiles[fs.md5(path)];
      var local := Basename(path);
      var rec := ReconcileAll(env, album, local, st.(hashed := st.hashed + [path]), ds);
      var sent := rec.log[|st.log|..];
      && MoveSources(sent) == RenameSources(env, local, ds)
      && (forall k :: 0 <= k < |ds| ==>
            (ds[k].path in MoveSources(sent) <==> Classify(local, RemoteName(env, ds[k])) == Rename))
      && RenamesSeeTrace(env, local, rec.log, |st.log|)
      && (album.Some? ==>
            && st.albumPhotos <= rec.albumPhotos
            && forall k :: 0 <= k < |ds| ==> AlbumId(album.value, ds[k], RemoteName(env, ds[k])) in rec.albumPhotos)
    ensures ProcessFile(env, srv, fs, album, st, path)
      == Step(None, ReconcileAll(env, album, Basename(path), st.(hashed := st.hashed + [path]), env.remoteFiles[fs.md5(path)]))
  {
    var ds := env.remoteFiles[fs.md5(path)];
    var local := Basename(path);
    var hashed := st.(hashed := st.hashed + [path]);
    var r := ReconcileAll(env, album, local, hashed, ds);
    ReconcileAllRenames(env, album, local, hashed, ds);
    var sent := r.log[|st.log|..];
    forall k | 0 <= k < |ds|
      ensures ds[k].path in MoveSources(sent) <==> Classify(local, RemoteName(env, ds[k])) == Rename
    {
      RenameListedIff(env, local, ds, k);
    }
    if album.Some? {
      ReconcileAllFillsAlbum(env, album.value, local, hashed, ds);
    }
    assert ProcessFile(env, srv, fs, album, st, path) == Step(None, r);
  }

  /** A photo whose content is not on the server is uploaded as
      DirectoryTask.php lines 120-136 say: it goes through exactly when its
      taken time resolves, its `/Y/m` collection is made and the upload into
      it succeeds; then, while the directory memo holds only successes, as
      `RemoteDirectory::create` keeps it, it was PUT to that collection under
      its encoded name, with the album COPY of the target last. */
  lemma NewContentIsUploaded(env: Env, srv: Server, fs: Fs, album: Option<string>, st: State, path: string)
    requires fs.md5(path) !in env.remoteFiles
    ensures var r := ProcessFile(env, srv, fs, album, st, path);
      var look := Metadata.TakenTimeOf(st.times, fs, path);
      && r == UploadNew(env, srv, fs, album, st.(hashed := st.hashed + [path]), path)
      && (r.error.None? <==>
            && look.time.Ok?
            && var dir := RemoteDirectory.Create(srv, st.log, st.dirs, env.filesBase, env.yearMonth(look.time.value));
               && dir.result.Ok?
               && RemoteFile.Upload(srv, dir.log, fs, look.cache, path, dir.result.value + "/" + env.rawUrlEncode(Basename(path))).result.Ok?)
      && (r.error.None? && RemoteDirectory.OnlySuccesses(st.dirs) ==>
            var t := r.st.times[path];
            var target := env.filesBase + env.yearMonth(t) + "/" + env.rawUrlEncode(Basename(path));
            && Put(target, fs.mtime(path), t, fs.size(path)) in r.st.log[|st.log|..]
            && (album.Some? ==>
                  r.st.log[|r.st.log| - 1] == Copy(target, album.value + "/" + env.rawUrlEncode(Basename(path)))))
  {
    var hashed := st.(hashed := st.hashed + [path]);
    var r := UploadNew(env, srv, fs, album, hashed, path);
    assert ProcessFile(env, srv, fs, album, st, path) == r;
    UploadNewSucceedsIff(env, srv, fs, album, hashed, path);
    if r.error.None? && RemoteDirectory.OnlySuccesses(st.dirs) {
      UploadNewTarget(env, srv, fs, album, hashed, path);
    }
  }

  /** The per-file loop of DirectoryTask.php lines 67-137, left at the
      first exception. */
  function ProcessFiles(env: Env, srv: Server, fs: Fs, album: Option<string>, st: State, files: seq<string>): (r: Step)
    ensures |st.log| <= |r.st.log| && r.st.log[..|st.log|] == st.log
    ensures RemoteDirectory.OnlySuccesses(st.dirs) ==> RemoteDirectory.OnlySuccesses(r.st.dirs)
    ensures album.None? ==> r.st.albumPhotos == st.albumPhotos && r.st.copied == st.copied
    ensures |st.hashed| <= |r.st.hashed| <= |st.hashed| + |files|
    ensures r.st.hashed == st.hashed + files[..|r.st.hashed| - |st.hashed|]
    ensures r.error.None? ==> |r.st.hashed| == |st.hashed| + |files|
    ensures r.error.Some? ==> |r.st.hashed| > |st.hashed|
    decreases |files|
  {
    if |files| == 0 then Step(None, st)
    else
      var step := ProcessFile(env, srv, fs, album, st, files[0]);
      if step.error.Some? then
        ConsPrefix(st.hashed, files, 0);
        step
      else
        var r := ProcessFiles(env, srv, fs, album, step.st, files[1..]);
        ConsPrefix(st.hashed, files, |r.st.hashed| - |step.st.hashed|);
        r
  }

  /** Once a photo throws, later photos are never looked at: appending
      more photos to the list changes nothing. */
  lemma {:induction false} AbortIgnoresLaterFiles(env: Env, srv: Server, fs: Fs, album: Option<string>, st: State, files: seq<string>, later: seq<string>)
    requires ProcessFiles(env, srv, fs, album, st, files).error.Some?
    ensures ProcessFiles(env, srv, fs, album, st, files + later) == ProcessFiles(env, srv, fs, album, st, files)
    decreases |files|
  {
    assert (files + later)[0] == files[0];
    assert (files + later)[1..] == files[1..] + later;
    var step := ProcessFile(env, srv, fs, album, st, files[0]);
    if step.error.None? {
      AbortIgnoresLaterFiles(env, srv, fs, album, step.st, files[1..], later);
    }
  }

  /** The loop's error is the exception of the last photo it hashed: the
      photos before that one all went through, and that photo's own step,
      taken from the state they left, threw it. */
  lemma ProcessFilesFailsAtLastHashed(env: Env, srv: Server, fs: Fs, album: Option<string>, st: State, files: seq<string>)
    requires ProcessFiles(env, srv, fs, album, st, files).error.Some?
    ensures var r := ProcessFiles(env, srv, fs, album, st, files);
      var n := |r.st.hashed| - |st.hashed|;
      && 0 < n <= |files|
      && ProcessFiles(env, srv, fs, album, st, files[..n - 1]).error.None?
    ensures var r := ProcessFiles(env, srv, fs, album, st, files);
      var n := |r.st.hashed| - |st.hashed|;
      0 < n <= |files| &&
      ProcessFile(env, srv, fs, album, ProcessFiles(env, srv, fs, album, st, files[..n - 1]).st, files[n - 1]) == r
  {
    ResumeAtLastHashed(env, srv, fs, album, st, files);
    var r := ProcessFiles(env, srv, fs, album, st, files);
    var n := |r.st.hashed| - |st.hashed|;
    var before := ProcessFiles(env, srv, fs, album, st, files[..n - 1]);
    assert files[n - 1..][0] == files[n - 1];
    FirstFails(env, srv, fs, album, before.st, files[n - 1..]);
  }

  /** A loop whose first photo fails stops with that photo's step. */
  lemma FirstFails(env: Env, srv: Server, fs: Fs, album: Option<string>, st: State, files: seq<string>)
    requires |files| > 0
    requires ProcessFile(env, srv, fs, album, st, files[0]).error.Some?
    ensures ProcessFiles(env, srv, fs, album, st, files) == ProcessFile(env, srv, fs, album, st, files[0])
  {}

  /** The loop over `files` fails, and resumes, after the photos before the
      last one it hashed, at that photo. */
  predicate ResumesAtLastHashed(env: Env, srv: Server, fs: Fs, album: Option<string>, st: State, files: seq<string>)
  {
    var r := ProcessFiles(env, srv, fs, album, st, files);
    var n := |r.st.hashed| - |st.hashed|;
    && r.error.Some?
    && 0 < n <= |files|
    && var before := ProcessFiles(env, srv, fs, album, st, files[..n - 1]);
       && before.error.None?
       && ProcessFile(env, srv, fs, album, before.st, files[n - 1]).error.Some?
       && ProcessFiles(env, srv, fs, album, before.st, files[n - 1..]) == r
  }

  lemma {:induction false} ResumeAtLastHashed(env: Env, srv: Server, fs: Fs, album: Option<string>, st: State, files: seq<string>)
    requires ProcessFiles(env, srv, fs, album, st, files).error.Some?
    ensures ResumesAtLastHashed(env, srv, fs, album, st, files)
    decreases |files|
  {
    var step := ProcessFile(env, srv, fs, album, st, files[0]);
    if step.error.Some? {
      ResumeAtFirst(env, srv, fs, album, st, files);
    } else {
      ProcessFilesStep(env, srv, fs, album, st, files);
      ResumeAtLastHashed(env, srv, fs, album, step.st, files[1..]);
      ResumeAfterFirst(env, srv, fs, album, st, files);
    }
  }

  /** Base case: the first photo throws. */
  lemma ResumeAtFirst(env: Env, srv: Server, fs: Fs, album: Option<string>, st: State, files: seq<string>)
    requires |files| > 0 && ProcessFile(env, srv, fs, album, st, files[0]).error.Some?
    ensures ResumesAtLastHashed(env, srv, fs, album, st, files)
  {
    var step := ProcessFile(env, srv, fs, album, st, files[0]);
    FirstFails(env, srv, fs, album, st, files);
    assert |step.st.hashed| - |st.hashed| == 1;
    assert files[..0] == [];
    assert ProcessFiles(env, srv, fs, album, st, []) == Step(None, st);
    assert files[0..] == files;
  }

  /** Step case: the first photo goes through and the rest of the loop
      resumes at its own last hashed photo. */
  lemma ResumeAfterFirst(env: Env, srv: Server, fs: Fs, album: Option<string>, st: State, files: seq<string>)
    requires |files| > 0
    requires ProcessFile(env, srv, fs, album, st, files[0]).error.None?
    requires ResumesAtLastHashed(env, srv, fs, album, ProcessFile(env, srv, fs, album, st, files[0]).st, files[1..])
    ensures ResumesAtLastHashed(env, srv, fs, album, st, files)
  {
    var step := ProcessFile(env, srv, fs, album, st, files[0]);
    ProcessFilesStep(env, srv, fs, album, st, files);
    var r := ProcessFiles(env, srv, fs, album, step.st, files[1..]);
    var m := |r.st.hashed| - |step.st.hashed|;
    PrefixSlices(files, m);
    ProcessFilesStep(env, srv, fs, album, st, files[..m]);
  }

  /** Slicing facts for a prefix of length `m` of a list and of its tail. */
  lemma PrefixSlices(files: seq<string>, m: nat)
    requires 0 < m <= |files| - 1
    ensures files[..m][0] == files[0] && files[..m][1..] == files[1..][..m - 1]
    ensures files[m..] == files[1..][m - 1..]
    ensures files[..m] == [files[0]] + files[1..][..m - 1]
  {}

  /** A photo that goes through hands its state to the rest of the loop. */
  lemma ProcessFilesStep(env: Env, srv: Server, fs: Fs, album: Option<string>, st: State, files: seq<string>)
    requires |files| > 0 && ProcessFile(env, srv, fs, album, st, files[0]).error.None?
    ensures ProcessFiles(env, srv, fs, album, st, files)
      == ProcessFiles(env, srv, fs, album, ProcessFile(env, srv, fs, album, st, files[0]).st, files[1..])
  {
  }

  lemma ConsPrefix(before: seq<string>, files: seq<string>, n: nat)
    requires n < |files|
    ensures (before + [files[0]]) + files[1..][..n] == before + files[..n + 1]
  {
    assert files[..n + 1] == [files[0]] + files[1..][..n];
  }

  // ---------------------------------------------------------------------
  // A directory that is not an album
  // ---------------------------------------------------------------------

  /** No COPY among the requests. */
  predicate NoCopies(reqs: seq<Request>) {
    forall i :: 0 <= i < |reqs| ==> !reqs[i].Copy?
  }

  lemma NoCopiesJoin(a: seq<Request>, b: seq<Request>, c: seq<Request>)
    requires |a| <= |b| <= |c| && b[..|a|] == a && c[..|b|] == b
    requires NoCopies(b[|a|..]) && NoCopies(c[|b|..])
    ensures NoCopies(c[|a|..])
  {
    forall i | 0 <= i < |c| - |a|
      ensures !c[|a|..][i].Copy?
    {
      if |a| + i < |b| {
        assert c[|a|..][i] == b[|a|..][i];
      } else {
        assert c[|a|..][i] == c[|b|..][|a| + i - |b|];
      }
    }
  }

  /** Making a collection sends only HEADs and MKCOLs after the trace. */
  lemma CreateSendsNoCopy(srv: Server, log: seq<Request>, cache: map<string, bool>, base: string, path: string)
    ensures var c := RemoteDirectory.Create(srv, log, cache, base, path);
      |log| <= |c.log| && c.log[..|log|] == log && NoCopies(c.log[|log|..])
  {
    var c := RemoteDirectory.Create(srv, log, cache, base, path);
    if base + path !in cache {
      var walk := RemoteDirectory.MkdirEach(srv, log, base, RemoteDirectory.SegmentPaths(path));
      assert c.log[|log|..] == walk.sent;
      forall i | 0 <= i < |walk.sent|
        ensures !walk.sent[i].Copy?
      {
        assert walk.sent[i] in walk.sent;
      }
    } else {
      assert c.log[|log|..] == [];
    }
  }

  /** An upload sends at most a PUT and a HEAD after the trace. */
  lemma UploadSendsNoCopy(srv: Server, log: seq<Request>, fs: Fs, times: map<string, Metadata.TakenTime>, source: string, target: string)
    ensures var up := RemoteFile.Upload(srv, log, fs, times, source, target);
      |log| <= |up.log| && up.log[..|log|] == log && NoCopies(up.log[|log|..])
  {
    var up := RemoteFile.Upload(srv, log, fs, times, source, target);
    if Metadata.TakenTimeOf(times, fs, source).time.Ok? {
      RemoteFile.UploadRequests(srv, log, fs, times, source, target);
    } else {
      assert up.log[|log|..] == [];
    }
  }

  /** Without an album, uploading a new photo sends no COPY. */
  lemma UploadNewSendsNoCopy(env: Env, srv: Server, fs: Fs, st: State, path: string)
    ensures var r := UploadNew(env, srv, fs, None, st, path);
      NoCopies(r.st.log[|st.log|..])
  {
    var r := UploadNew(env, srv, fs, None, st, path);
    var first := Metadata.TakenTimeOf(st.times, fs, path);
    if first.time.Ok? {
      var second := Metadata.TakenTimeOf(first.cache, fs, path);
      CreateAndUploadSendsNoCopy(env, srv, fs, st.(times := second.cache), path);
    } else {
      assert r.st.log[|st.log|..] == [];
    }
  }

  lemma CreateAndUploadSendsNoCopy(env: Env, srv: Server, fs: Fs, st: State, path: string)
    requires path in st.times
    ensures var r := CreateAndUpload(env, srv, fs, None, st, path);
      NoCopies(r.st.log[|st.log|..])
  {
    var r := CreateAndUpload(env, srv, fs, None, st, path);
    var dir := RemoteDirectory.Create(srv, st.log, st.dirs, env.filesBase, env.yearMonth(st.times[path]));
    CreateSendsNoCopy(srv, st.log, st.dirs, env.filesBase, env.yearMonth(st.times[path]));
    if dir.result.Ok? {
      var made := st.(log := dir.log, dirs := dir.cache);
      assert r == UploadInto(env, srv, fs, None, made, path, dir.result.value);
      var target := dir.result.value + "/" + env.rawUrlEncode(Basename(path));
      UploadSendsNoCopy(srv, dir.log, fs, st.times, path, target);
      NoCopiesJoin(st.log, dir.log, r.st.log);
    }
  }

  /** Without an album, the duplicate loop sends only MOVEs. */
  lemma {:induction false} ReconcileAllSendsNoCopy(env: Env, local: string, st: State, ds: seq<Duplicate>)
    ensures var r := ReconcileAll(env, None, local, st, ds);
      NoCopies(r.log[|st.log|..])
    decreases |ds|
  {
    var r := ReconcileAll(env, None, local, st, ds);
    if |ds| == 0 {
      assert r.log[|st.log|..] == [];
    } else {
      var next := Reconcile(env, None, local, st, ds[0]);
      ReconcileRequests(env, None, local, st, ds[0]);
      assert NoCopies(next.log[|st.log|..]);
      ReconcileAllSendsNoCopy(env, local, next, ds[1..]);
      NoCopiesJoin(st.log, next.log, r.log);
    }
  }

  lemma ProcessFileSendsNoCopy(env: Env, srv: Server, fs: Fs, st: State, path: string)
    ensures NoCopies(ProcessFile(env, srv, fs, None, st, path).st.log[|st.log|..])
  {
    var hashed := st.(hashed := st.hashed + [path]);
    if fs.md5(path) in env.remoteFiles {
      var ds := env.remoteFiles[fs.md5(path)];
      assert ProcessFile(env, srv, fs, None, st, path) == Step(None, ReconcileAll(env, None, Basename(path), hashed, ds));
      ReconcileAllSendsNoCopy(env, Basename(path), hashed, ds);
    } else {
      assert ProcessFile(env, srv, fs, None, st, path) == UploadNew(env, srv, fs, None, hashed, path);
      UploadNewSendsNoCopy(env, srv, fs, hashed, path);
    }
  }

  /** Without an album, the whole loop sends no COPY: neither the album
      copies of reconciled duplicates nor those of uploads. */
  lemma {:induction false} ProcessFilesSendsNoCopy(env: Env, srv: Server, fs: Fs, st: State, files: seq<string>)
    ensures NoCopies(ProcessFiles(env, srv, fs, None, st, files).st.log[|st.log|..])
    decreases |files|
  {
    var r := ProcessFiles(env, srv, fs, None, st, files);
    if |files| == 0 {
      assert r.st.log[|st.log|..] == [];
    } else {
      var step := ProcessFile(env, srv, fs, None, st, files[0]);
      ProcessFileSendsNoCopy(env, srv, fs, st, files[0]);
      if step.error.None? {
        ProcessFilesStep(env, srv, fs, None, st, files);
        ProcessFilesSendsNoCopy(env, srv, fs, step.st, files[1..]);
        NoCopiesJoin(st.log, step.st.log, r.st.log);
      } else {
        FirstFails(env, srv, fs, None, st, files);
      }
    }
  }

  /** Album additions stay unique over the whole loop: new uploads never
      touch the album's member list. */
  lemma {:induction false} ProcessFilesKeepsCopiedOnce(env: Env, srv: Server, fs: Fs, album: Option<string>, st: State, files: seq<string>, initial: set<string>)
    requires CopiedOnce(initial, st)
    ensures CopiedOnce(initial, ProcessFiles(env, srv, fs, album, st, files).st)
    decreases |files|
  {
    if |files| > 0 {
      var path := files[0];
      var hashed := st.(hashed := st.hashed + [path]);
      if fs.md5(path) in env.remoteFiles {
        ReconcileAllKeepsCopiedOnce(env, album, Basename(path), hashed, env.remoteFiles[fs.md5(path)], initial);
      }
      var step := ProcessFile(env, srv, fs, album, st, path);
      if step.error.None? {
        ProcessFilesKeepsCopiedOnce(env, srv, fs, album, step.st, files[1..], initial);
      }
    }
  }

  // ---------------------------------------------------------------------
  // The job
  // ---------------------------------------------------------------------

  const SkipMessage := "skip to prevent recurring crashes, resolve errors first and delete gp2nc-error.log"

  /** The error log of a directory. */
  function ErrorLogPath(origin: string): string {
    origin + "/gp2nc-error.log"
  }

  /** The job's result string, the first line of the error log it writes
      (the exception's file, line and stack trace that follow are not
      modelled), and the state it ends in. */
  datatype Job = Job(outcome: string, errorLog: Option<string>, st: State)

  /** The state the loop starts from: the album's members as a depth-1
      PROPFIND lists them when the directory is an album. */
  function Start(srv: Server, log: seq<Request>, times: map<string, Metadata.TakenTime>, dirs: map<string, bool>, album: Option<string>): (r: State)
    ensures album.None? ==> r == State(log, times, dirs, {}, [], [])
    ensures album.Some? ==> r.log == log + [PropFind(album.value, 1)] && r.copied == [] && r.hashed == []
    ensures album.Some? ==> r.times == times && r.dirs == dirs && r.albumPhotos == srv(log, PropFind(album.value, 1)).members
  {
    match album
    case None => State(log, times, dirs, {}, [], [])
    case Some(a) =>
      var listing := Send(srv, log, PropFind(a, 1));
      State(listing.log, times, dirs, listing.response.members, [], [])
  }

  /** `DirectoryTask::__invoke` on the directory `origin`. */
  function Invoke(env: Env, srv: Server, fs: Fs, log: seq<Request>, times: map<string, Metadata.TakenTime>, dirs: map<string, bool>, origin: string): (r: Job)
    ensures fs.isFile(ErrorLogPath(origin)) ==>
      r == Job(SkipMessage, None, State(log, times, dirs, {}, [], []))
    ensures !fs.isFile(ErrorLogPath(origin)) ==>
      && (r.outcome == "done" <==> r.errorLog.None?)
      && (r.errorLog.Some? ==> exists m :: r.outcome == "failed: " + m && r.errorLog == Some("Failed reading metadata: " + m))
    ensures !fs.isFile(ErrorLogPath(origin)) ==>
      var run := Run(env, srv, fs, log, times, dirs, origin);
      && r.st == run.st
      && (r.outcome == "done" <==> run.error.None?)
      && (run.error.Some? ==> r.outcome == "failed: " + run.error.value)
  {
    if fs.isFile(ErrorLogPath(origin)) then
      Job(SkipMessage, None, State(log, times, dirs, {}, [], []))
    else
      Conclude(Run(env, srv, fs, log, times, dirs, origin))
  }

  /** The loop of the job over the directory's photos, after the album's
      PROPFIND when the directory is an album: it hashes the photos in
      listing order, all of them unless one throws. */
  function Run(env: Env, srv: Server, fs: Fs, log: seq<Request>, times: map<string, Metadata.TakenTime>, dirs: map<string, bool>, origin: string): (r: Step)
    ensures var photos := PhotoFiles(fs, origin);
      && |r.st.hashed| <= |photos| && r.st.hashed == photos[..|r.st.hashed|]
      && (r.error.None? ==> r.st.hashed == photos)
      && (r.error.Some? ==> |r.st.hashed| > 0)
  {
    var album := AlbumPath(env, origin);
    var photos := PhotoFiles(fs, origin);
    assert photos[..|photos|] == photos;
    ProcessFiles(env, srv, fs, album, Start(srv, log, times, dirs, album), photos)
  }

  /** The job's result string and error log after the loop. */
  function Conclude(run: Step): (r: Job)
    ensures r.st == run.st
    ensures run.error.None? ==> r.outcome == "done" && r.errorLog.None?
    ensures run.error.Some? ==>
      r.outcome == "failed: " + run.error.value && r.errorLog == Some("Failed reading metadata: " + run.error.value)
    ensures r.outcome == "done" <==> r.errorLog.None?
    ensures r.errorLog.Some? ==> exists m :: r.outcome == "failed: " + m && r.errorLog == Some("Failed reading metadata: " + m)
  {
    match run.error
    case Some(m) =>
      assert ("failed: " + m)[..4] == "fail";
      Job("failed: " + m, Some("Failed reading metadata: " + m), run.st)
    case None => Job("done", None, run.st)
  }

  /** A job that completes has hashed every photo of the directory, in
      order; a job that fails has hashed a non-empty prefix of them, the
      photo that threw being the last. No `.json` file is ever hashed. */
  lemma JobHashesPhotosInOrder(env: Env, srv: Server, fs: Fs, log: seq<Request>, times: map<string, Metadata.TakenTime>, dirs: map<string, bool>, origin: string)
    requires !fs.isFile(ErrorLogPath(origin))
    ensures var r := Invoke(env, srv, fs, log, times, dirs, origin);
      var photos := PhotoFiles(fs, origin);
      && (r.outcome == "done" ==> r.st.hashed == photos)
      && (r.outcome != "done" ==> 0 < |r.st.hashed| <= |photos| && r.st.hashed == photos[..|r.st.hashed|])
      && (forall p :: p in r.st.hashed ==> !EndsWith(p, ".json"))
  {
    var album := AlbumPath(env, origin);
    var photos := PhotoFiles(fs, origin);
    var st := Start(srv, log, times, dirs, album);
    var r := ProcessFiles(env, srv, fs, album, st, photos);
    assert photos[..|photos|] == photos;
    forall p | p in r.st.hashed
      ensures !EndsWith(p, ".json")
    {
      var i :| 0 <= i < |r.st.hashed| && r.st.hashed[i] == p;
      assert p in photos;
    }
  }

  /** Within one job, every album identifier is copied at most once and
      only when the album's listing did not already hold it; a directory
      that is not an album records no album addition and sends no COPY,
      neither for a reconciled duplicate nor for an upload. */
  lemma JobCopiesOncePerIdentifier(env: Env, srv: Server, fs: Fs, log: seq<Request>, times: map<string, Metadata.TakenTime>, dirs: map<string, bool>, origin: string)
    requires !fs.isFile(ErrorLogPath(origin))
    ensures var r := Invoke(env, srv, fs, log, times, dirs, origin);
      var album := AlbumPath(env, origin);
      && NoDuplicates(r.st.copied)
      && (album.Some? ==>
            var listed := srv(log, PropFind(album.value, 1)).members;
            forall i :: 0 <= i < |r.st.copied| ==> r.st.copied[i] !in listed)
      && (album.None? ==> r.st.copied == [] && r.st.log[..|log|] == log && NoCopies(r.st.log[|log|..]))
  {
    var album := AlbumPath(env, origin);
    var st := Start(srv, log, times, dirs, album);
    ProcessFilesKeepsCopiedOnce(env, srv, fs, album, st, PhotoFiles(fs, origin), st.albumPhotos);
    if album.None? {
      ProcessFilesSendsNoCopy(env, srv, fs, st, PhotoFiles(fs, origin));
    }
  }

  /** A failed job leaves an error log behind, and the next job on the same
      directory sees it and skips without a request. */
  lemma FailureThenSkip(env: Env, srv: Server, fs: Fs, log: seq<Request>, times: map<string, Metadata.TakenTime>, dirs: map<string, bool>, origin: string)
    requires Invoke(env, srv, fs, log, times, dirs, origin).errorLog.Some?
    ensures var r := Invoke(env, srv, fs, log, times, dirs, origin);
      var after := fs.(isFile := p => p == ErrorLogPath(origin) || fs.isFile(p));
      Invoke(env, srv, after, r.st.log, r.st.times, r.st.dirs, origin).outcome == SkipMessage
  {
  }
}

=== FILE: filesystem.dfy ===
/** The local filesystem as the migrator sees it, given as an oracle: a
    listing of every path in `glob` order, and the answers of `is_file`,
    `file_exists`, `filesize`, `filemtime`, `md5_file`, the JSON sidecar
    reader and the image-property reader for each path. */
module FileSystem {
  import opened Common

  /** The part of a sidecar JSON document the taken-time resolver reads:
      `photoTakenTime.timestamp` and `creationTime.timestamp`, each present
      or not. */
  datatype Sidecar = Sidecar(photoTakenTime: Option<int>, creationTime: Option<int>)

  datatype Fs = Fs(
    listing: seq<string>,
    isFile: string -> bool,
    fileExists: string -> bool,
    size: string -> int,
    mtime: string -> int,
    md5: string -> string,
    sidecar: string -> Sidecar,
    // the image's EXIF properties, or the exception the image library throws
    exif: string -> Result<map<string, string>>
  )

  /** `p` matches the glob pattern `prefix*suffix`: the `*` stands for a
      run without `/`, and when it opens a path component it does not match
      a leading `.`. */
  predicate GlobMatch(p: string, prefix: string, suffix: string) {
    && |prefix| + |suffix| <= |p|
    && p[..|prefix|] == prefix
    && p[|p| - |suffix|..] == suffix
    && var middle := p[|prefix|..|p| - |suffix|];
       && '/' !in middle
       && ((|prefix| == 0 || prefix[|prefix| - 1] == '/') && |middle| > 0 ==> middle[0] != '.')
  }

  /** PHP `glob(prefix . '*' . suffix)` over the listing: the matching paths,
      in listing order. */
  function Glob(listing: seq<string>, prefix: string, suffix: string): (r: seq<string>)
    ensures |r| <= |listing|
    ensures forall p :: p in r <==> p in listing && GlobMatch(p, prefix, suffix)
  {
    if |listing| == 0 then []
    else
      var rest := Glob(listing[1..], prefix, suffix);
      assert forall p :: p in listing <==> p == listing[0] || p in listing[1..];
      if GlobMatch(listing[0], prefix, suffix) then [listing[0]] + rest else rest
  }

  /** Every match of `prefix*head + tail` ends with `tail`. */
  lemma MatchEndsWith(p: string, prefix: string, head: string, tail: string)
    requires GlobMatch(p, prefix, head + tail)
    ensures EndsWith(p, tail)
  {
    assert p[|p| - |tail|..] == p[|p| - |head + tail|..][|head|..];
  }

  /** Globbing keeps the listing's order: the matches of a concatenated
      listing are the matches of each part, in turn. */
  lemma {:induction false} GlobOfConcat(a: seq<string>, b: seq<string>, prefix: string, suffix: string)
    ensures Glob(a + b, prefix, suffix) == Glob(a, prefix, suffix) + Glob(b, prefix, suffix)
    decreases |a|
  {
    if |a| > 0 {
      assert (a + b)[1..] == a[1..] + b;
      GlobOfConcat(a[1..], b, prefix, suffix);
    } else {
      assert a + b == b;
    }
  }
}

=== FILE: increment.dfy ===
/** The filename-increment heuristic of the directory job
    (`DirectoryTask::filenameContainsIncrement` and
    `DirectoryTask::filenamesWithouthIncrementAreIdentical`).

    An increment group is what the pattern `\([\w\d\s]+\)` matches: an
    opening parenthesis, one or more word or whitespace characters, and a
    closing parenthesis. `\w` and `\s` are taken in their ASCII meaning. */
module Increment {

  /** A character of the class `[\w\d\s]`. */
  predicate IsWordChar(c: char) {
    || ('a' <= c <= 'z') || ('A' <= c <= 'Z') || ('0' <= c <= '9') || c == '_'
    || c == ' ' || c == '\t' || c == '\n' || c == '\r' || c == '\U{000B}' || c == '\U{000C}'
  }

  /** The whole of `t` is one match of `\([\w\d\s]+\)`. */
  predicate IsIncrementGroup(t: string) {
    && |t| >= 3
    && t[0] == '('
    && t[|t| - 1] == ')'
    && forall k :: 1 <= k < |t| - 1 ==> IsWordChar(t[k])
  }

  /** Length of the longest prefix of `s` made of word characters. */
  function WordRun(s: string): (n: nat)
    ensures n <= |s|
    ensures forall k :: 0 <= k < n ==> IsWordChar(s[k])
    ensures n < |s| ==> !IsWordChar(s[n])
  {
    if |s| == 0 || !IsWordChar(s[0]) then 0 else 1 + WordRun(s[1..])
  }

  /** Length of the increment group that starts `s`, or 0 when none does.
      Since `)` is not a word character, at most one prefix of `s` is a
      group, so the regular expression's choice is forced. */
  function GroupAtStart(s: string): (n: nat)
    ensures n <= |s|
    ensures n > 0 ==> IsIncrementGroup(s[..n])
  {
    if |s| > 0 && s[0] == '(' then
      var w := WordRun(s[1..]);
      if w > 0 && 1 + w < |s| && s[1 + w] == ')' then w + 2 else 0
    else 0
  }

  /** Every prefix of `s` that is a group is the one `GroupAtStart` finds. */
  lemma GroupAtStartIsUnique(s: string, k: nat)
    requires k <= |s| && IsIncrementGroup(s[..k])
    ensures GroupAtStart(s) == k
  {
  }

  /** `preg_replace('/\([\w\d\s]+\)/', '', s)`: scanning from the left, every
      increment group is removed; where no group starts, the character is
      kept and the scan moves one position on. */
  function StripIncrements(s: string): (r: string)
    ensures |r| <= |s|
  {
    if |s| == 0 then ""
    else
      var n := GroupAtStart(s);
      if n > 0 then StripIncrements(s[n..]) else [s[0]] + StripIncrements(s[1..])
  }

  /** `filenameContainsIncrement`: `preg_match` finds a group somewhere. */
  predicate ContainsIncrement(s: string) {
    |s| > 0 && (GroupAtStart(s) > 0 || ContainsIncrement(s[1..]))
  }

  /** `filenamesWithouthIncrementAreIdentical`. */
  predicate SameWithoutIncrement(a: string, b: string) {
    StripIncrements(a) == StripIncrements(b)
  }

  /** The scan of `ContainsIncrement` agrees with the declarative reading of
      the pattern: some substring is an increment group. */
  lemma ContainsIncrementIffGroup(s: string)
    ensures ContainsIncrement(s) <==> exists i, j :: 0 <= i < j <= |s| && IsIncrementGroup(s[i..j])
  {
    if ContainsIncrement(s) {
      var i, j := IncrementHasGroup(s);
    }
    if exists i, j :: 0 <= i < j <= |s| && IsIncrementGroup(s[i..j]) {
      var i, j :| 0 <= i < j <= |s| && IsIncrementGroup(s[i..j]);
      GroupMeansIncrement(s, i, j);
    }
  }

  /** The scan finds a group only where there is one. */
  lemma {:induction false} IncrementHasGroup(s: string) returns (i: nat, j: nat)
    requires ContainsIncrement(s)
    ensures i < j <= |s| && IsIncrementGroup(s[i..j])
    decreases |s|
  {
    if GroupAtStart(s) > 0 {
      i, j := 0, GroupAtStart(s);
      assert s[0..j] == s[..j];
    } else {
      var i', j' := IncrementHasGroup(s[1..]);
      i, j := i' + 1, j' + 1;
      SliceOfTail(s, i, j);
    }
  }

  /** The scan finds every group. */
  lemma {:induction false} GroupMeansIncrement(s: string, i: nat, j: nat)
    requires i < j <= |s| && IsIncrementGroup(s[i..j])
    ensures ContainsIncrement(s)
    decreases i
  {
    if i == 0 {
      assert s[..j] == s[i..j];
      GroupAtStartIsUnique(s, j);
    } else {
      SliceOfTail(s, i, j);
      GroupMeansIncrement(s[1..], i - 1, j - 1);
    }
  }

  /** A slice of the tail is the slice one position further on. */
  lemma SliceOfTail(s: string, i: nat, j: nat)
    requires 1 <= i <= j <= |s|
    ensures s[1..][i - 1..j - 1] == s[i..j]
  {
    forall k | 0 <= k < j - i
      ensures s[1..][i - 1..j - 1][k] == s[i..j][k]
    {
      assert s[1..][i - 1 + k] == s[i + k];
    }
  }

  /** A name without an increment is left untouched by the stripping. */
  lemma {:induction false} StripWithoutIncrement(s: string)
    requires !ContainsIncrement(s)
    ensures StripIncrements(s) == s
    decreases |s|
  {
    if |s| > 0 {
      StripWithoutIncrement(s[1..]);
      assert s == [s[0]] + s[1..];
    }
  }

  /** A name with an increment is strictly shortened by the stripping. */
  lemma {:induction false} StripShortensIncrement(s: string)
    requires ContainsIncrement(s)
    ensures |StripIncrements(s)| < |s|
    decreases |s|
  {
    if GroupAtStart(s) == 0 {
      StripShortensIncrement(s[1..]);
    }
  }

  /** A name without `(` has no increment. */
  lemma {:induction false} NoParenNoIncrement(s: string)
    requires '(' !in s
    ensures !ContainsIncrement(s)
    decreases |s|
  {
    if |s| > 0 {
      assert s[1..] <= s[1..] && forall c :: c in s[1..] ==> c in s;
      NoParenNoIncrement(s[1..]);
    }
  }

  /** A first character that starts no increment group survives the
      stripping, and the scan moves on by one: this covers every character
      other than `(`, and a `(` that no group closes. */
  lemma StripKeepsPlainFirst(c: char, t: string)
    requires forall k :: 0 <= k <= |[c] + t| ==> !IsIncrementGroup(([c] + t)[..k])
    ensures StripIncrements([c] + t) == [c] + StripIncrements(t)
  {
    assert ([c] + t)[1..] == t;
  }

  /** The empty name strips to itself. Together with `StripDropsLeadingGroup`
      and `StripKeepsPlainFirst`, this fixes the stripping of every name. */
  lemma StripEmpty()
    ensures StripIncrements("") == ""
  {
  }

  /** A `(` that opens no group stays while the group after it goes:
      `((1).jpg` strips to `(.jpg`. */
  lemma ParenBeforeGroup(g: string, tail: string)
    requires IsIncrementGroup(g) && '(' !in tail
    ensures StripIncrements(['('] + (g + tail)) == ['('] + tail
  {
    var s := ['('] + (g + tail);
    forall k | 0 <= k <= |s|
      ensures !IsIncrementGroup(s[..k])
    {
      if k >= 3 {
        assert s[..k][1] == g[0];
      }
    }
    StripKeepsPlainFirst('(', g + tail);
    GroupThenTail(g, tail);
  }

  /** A leading increment group is removed whole. */
  lemma StripDropsLeadingGroup(g: string, t: string)
    requires IsIncrementGroup(g)
    ensures StripIncrements(g + t) == StripIncrements(t)
  {
    assert (g + t)[..|g|] == g;
    GroupAtStartIsUnique(g + t, |g|);
    assert (g + t)[|g|..] == t;
  }

  /** A `(`-free stem followed by one group and a `(`-free tail loses
      exactly the group: `IMG_1(2).jpg` strips to `IMG_1.jpg`. */
  lemma {:induction false} StripStemGroupTail(stem: string, g: string, tail: string)
    requires '(' !in stem && IsIncrementGroup(g) && '(' !in tail
    ensures StripIncrements(stem + (g + tail)) == stem + tail
    decreases |stem|
  {
    if |stem| == 0 {
      assert stem + (g + tail) == g + tail && stem + tail == tail;
      GroupThenTail(g, tail);
    } else {
      NoParenAfterFirst(stem);
      StripStemGroupTail(stem[1..], g, tail);
      StripPlainStep(stem, g + tail, tail);
    }
  }

  /** The inductive step: a `(`-free first character is kept in front. */
  lemma StripPlainStep(stem: string, after: string, tail: string)
    requires |stem| > 0 && stem[0] != '('
    requires StripIncrements(stem[1..] + after) == stem[1..] + tail
    ensures StripIncrements(stem + after) == stem + tail
  {
    ConsSplit(stem, after);
    ConsSplit(stem, tail);
    forall k | 0 <= k <= |[stem[0]] + (stem[1..] + after)|
      ensures !IsIncrementGroup(([stem[0]] + (stem[1..] + after))[..k])
    {
      if k > 0 {
        assert ([stem[0]] + (stem[1..] + after))[..k][0] == stem[0];
      }
    }
    StripKeepsPlainFirst(stem[0], stem[1..] + after);
  }

  lemma ConsSplit(s: string, t: string)
    requires |s| > 0
    ensures s + t == [s[0]] + (s[1..] + t)
  {
    assert s == [s[0]] + s[1..];
  }

  lemma GroupThenTail(g: string, tail: string)
    requires IsIncrementGroup(g) && '(' !in tail
    ensures StripIncrements(g + tail) == tail
  {
    StripDropsLeadingGroup(g, tail);
    NoParenNoIncrement(tail);
    StripWithoutIncrement(tail);
  }

  lemma NoParenAfterFirst(s: string)
    requires '(' !in s && |s| > 0
    ensures s[0] != '(' && '(' !in s[1..]
  {
    assert s == [s[0]] + s[1..];
  }


  /** Stripping changes a name exactly when the name contains an increment. */
  lemma StripChangesIffIncrement(s: string)
    ensures StripIncrements(s) != s <==> ContainsIncrement(s)
  {
    if ContainsIncrement(s) {
      StripShortensIncrement(s);
    } else {
      StripWithoutIncrement(s);
    }
  }

  /** When neither name carries an increment, comparison without increments
      is plain string equality. */
  lemma SameWithoutIncrementIsEquality(a: string, b: string)
    requires !ContainsIncrement(a) && !ContainsIncrement(b)
    ensures SameWithoutIncrement(a, b) <==> a == b
  {
    StripWithoutIncrement(a);
    StripWithoutIncrement(b);
  }
}

=== FILE: io.dfy ===
/** `IO::createDirectory`, the older way of making a remote collection:
    one probe of the full path, then a MKCOL per segment with no probes in
    between, memoising the failing segment as `false`. */
module IO {
  import opened Common
  import opened Remote
  import RemoteDirectory

  /** The returned path (`None` for PHP `false`), the trace and the memo
      after the call. */
  datatype Outcome = Outcome(result: Option<string>, log: seq<Request>, cache: map<string, bool>)

  /** The MKCOLs of one segment walk and where, if anywhere, it stopped. */
  datatype Walk = Walk(failedAt: Option<nat>, sent: seq<Request>)

  /** The number of segments a walk attempted. */
  function Attempted(w: Walk, total: nat): nat {
    if w.failedAt.Some? then w.failedAt.value + 1 else total
  }

  /** The loop of IO.php lines 29-38: MKCOL each segment in turn, stopping
      at the first status outside [200, 399]. */
  function MkcolEach(srv: Server, log: seq<Request>, base: string, paths: seq<string>): (r: Walk)
    ensures r.failedAt.Some? ==> r.failedAt.value < |paths|
    ensures |r.sent| == Attempted(r, |paths|)
    decreases |paths|
  {
    if |paths| == 0 then
      Walk(None, [])
    else
      var made := Send(srv, log, Mkcol(base + paths[0]));
      if !IsSuccess(made.response.status) then
        Walk(Some(0), [Mkcol(base + paths[0])])
      else
        var rest := MkcolEach(srv, made.log, base, paths[1..]);
        Walk(if rest.failedAt.None? then None else Some(rest.failedAt.value + 1), [Mkcol(base + paths[0])] + rest.sent)
  }

  /** The `i`-th request of a walk is the MKCOL of the `i`-th segment. */
  lemma {:induction false} MkcolEachSendsSegments(srv: Server, log: seq<Request>, base: string, paths: seq<string>, i: nat)
    requires i < |MkcolEach(srv, log, base, paths).sent|
    ensures MkcolEach(srv, log, base, paths).sent[i] == Mkcol(base + paths[i])
    decreases |paths|
  {
    if i > 0 {
      var first := Mkcol(base + paths[0]);
      MkcolEachUnfolds(srv, log, base, paths);
      MkcolEachSendsSegments(srv, log + [first], base, paths[1..], i - 1);
    }
  }

  /** The status the server gave the `i`-th request of `sent`, sent after
      `log` and the requests before it. */
  function StatusAt(srv: Server, log: seq<Request>, sent: seq<Request>, i: nat): int
    requires i < |sent|
  {
    srv(log + sent[..i], sent[i]).status
  }

  /** The walk stops exactly at the first refused MKCOL: each MKCOL it
      sent was refused exactly when the walk reports a failure at it. */
  lemma {:induction false} MkcolEachStopsAtFirstRefusal(srv: Server, log: seq<Request>, base: string, paths: seq<string>, i: nat)
    requires i < |MkcolEach(srv, log, base, paths).sent|
    ensures var r := MkcolEach(srv, log, base, paths);
      IsSuccess(StatusAt(srv, log, r.sent, i)) <==> r.failedAt != Some(i)
    decreases |paths|
  {
    var r := MkcolEach(srv, log, base, paths);
    var first := Mkcol(base + paths[0]);
    if i == 0 {
      assert log + r.sent[..0] == log;
    } else {
      var rest := MkcolEach(srv, log + [first], base, paths[1..]);
      MkcolEachUnfolds(srv, log, base, paths);
      MkcolEachStopsAtFirstRefusal(srv, log + [first], base, paths[1..], i - 1);
      StatusAtShift(srv, log, [first], rest.sent, i - 1);
    }
  }

  /** A walk that went past its first segment is that MKCOL followed by the
      walk of the remaining segments. */
  lemma MkcolEachUnfolds(srv: Server, log: seq<Request>, base: string, paths: seq<string>)
    requires 1 < |MkcolEach(srv, log, base, paths).sent|
    ensures var r := MkcolEach(srv, log, base, paths);
      var first := Mkcol(base + paths[0]);
      var rest := MkcolEach(srv, log + [first], base, paths[1..]);
      && r.sent == [first] + rest.sent
      && (r.failedAt.None? <==> rest.failedAt.None?)
      && (rest.failedAt.Some? ==> r.failedAt == Some(rest.failedAt.value + 1))
  {
    var first := Mkcol(base + paths[0]);
    var made := Send(srv, log, first);
    assert |paths| > 0 && IsSuccess(made.response.status);
    var rest := MkcolEach(srv, made.log, base, paths[1..]);
    assert MkcolEach(srv, log, base, paths)
      == Walk(if rest.failedAt.None? then None else Some(rest.failedAt.value + 1), [first] + rest.sent);
  }

  /** Statuses are read against the whole trace before each request, so
      moving a prefix of the requests into the trace leaves them unchanged. */
  lemma StatusAtShift(srv: Server, log: seq<Request>, pre: seq<Request>, sent: seq<Request>, i: nat)
    requires i < |sent|
    ensures StatusAt(srv, log, pre + sent, |pre| + i) == StatusAt(srv, log + pre, sent, i)
  {
    assert (pre + sent)[..|pre| + i] == pre + sent[..i];
    assert log + (pre + sent[..i]) == (log + pre) + sent[..i];
  }

  /** `IO::createDirectory` with its static memo made explicit. */
  function CreateDirectory(srv: Server, log: seq<Request>, cache: map<string, bool>, base: string, path: string): (r: Outcome)
    ensures base + path in cache ==>
      r == Outcome(if cache[base + path] then Some(base + path) else None, log, cache)
    ensures base + path !in cache ==>
      |r.log| > |log| && r.log[..|log| + 1] == log + [Head(base + path)]
    ensures base + path !in cache && srv(log, Head(base + path)).status != 404 ==>
      r == Outcome(Some(base + path), log + [Head(base + path)], cache[base + path := true])
    ensures base + path !in cache && srv(log, Head(base + path)).status == 404 ==>
      var walk := MkcolEach(srv, log + [Head(base + path)], base, RemoteDirectory.SegmentPaths(path));
      && r.log == log + [Head(base + path)] + walk.sent
      && (walk.failedAt.None? ==> r.result == Some(base + path) && r.cache == cache[base + path := true])
      && (walk.failedAt.Some? ==>
            r.result.None? && r.cache == cache[base + RemoteDirectory.SegmentPaths(path)[walk.failedAt.value] := false])
    ensures r.result.Some? ==> r.result.value == base + path
  {
    var key := base + path;
    if key in cache then
      Outcome(if cache[key] then Some(key) else None, log, cache)
    else
      var head := Send(srv, log, Head(key));
      if head.response.status != 404 then
        Outcome(Some(key), head.log, cache[key := true])
      else
        var segments := RemoteDirectory.SegmentPaths(path);
        var walk := MkcolEach(srv, head.log, base, segments);
        if walk.failedAt.Some? then
          Outcome(None, head.log + walk.sent, cache[base + segments[walk.failedAt.value] := false])
        else
          Outcome(Some(key), head.log + walk.sent, cache[key := true])
  }

  /** After a 404 probe the segments are made root to leaf with no further
      probe: the only HEAD of the call is the one on the full path, and the
      MKCOLs go to the segments in order, all of them or up to the first
      refused one. */
  lemma CreateDirectoryMakesSegmentsInOrder(srv: Server, log: seq<Request>, cache: map<string, bool>, base: string, path: string)
    requires base + path !in cache && srv(log, Head(base + path)).status == 404
    ensures var r := CreateDirectory(srv, log, cache, base, path);
      var segments := RemoteDirectory.SegmentPaths(path);
      var sent := r.log[|log|..];
      && HeadTargets(sent) == [base + path]
      && (r.result.Some? ==> MkcolTargets(sent) == Prefixed(base, segments))
      && (r.result.None? ==>
            exists k :: 0 <= k < |segments|
              && MkcolTargets(sent) == Prefixed(base, segments[..k + 1])
              && base + segments[k] in r.cache && r.cache[base + segments[k]] == false)
  {
    var r := CreateDirectory(srv, log, cache, base, path);
    var segments := RemoteDirectory.SegmentPaths(path);
    var sent := WalkAfterProbe(srv, log, cache, base, path);
    ProbeThenMkcols(base + path, base, segments, sent);
    if r.result.None? {
      var k := |sent| - 1;
      assert segments[..|sent|] == segments[..k + 1];
    } else {
      assert segments[..|sent|] == segments;
    }
  }

  /** What a call after a 404 probe sent past the probe: MKCOLs to the
      first segments, all of them exactly when it succeeded, and on failure
      the last one is memoised as `false`. */
  lemma WalkAfterProbe(srv: Server, log: seq<Request>, cache: map<string, bool>, base: string, path: string)
    returns (sent: seq<Request>)
    requires base + path !in cache && srv(log, Head(base + path)).status == 404
    ensures var r := CreateDirectory(srv, log, cache, base, path);
      var segments := RemoteDirectory.SegmentPaths(path);
      && r.log[|log|..] == [Head(base + path)] + sent
      && |sent| <= |segments|
      && (forall i :: 0 <= i < |sent| ==> sent[i] == Mkcol(base + segments[i]))
      && (r.result.Some? ==> |sent| == |segments|)
      && (r.result.None? ==> 0 < |sent| && base + segments[|sent| - 1] in r.cache && r.cache[base + segments[|sent| - 1]] == false)
  {
    var walk := MkcolEach(srv, log + [Head(base + path)], base, RemoteDirectory.SegmentPaths(path));
    sent := walk.sent;
    forall i | 0 <= i < |sent|
      ensures sent[i] == Mkcol(base + RemoteDirectory.SegmentPaths(path)[i])
    {
      MkcolEachSendsSegments(srv, log + [Head(base + path)], base, RemoteDirectory.SegmentPaths(path), i);
    }
    AfterPrefix(log, [Head(base + path)] + sent);
  }

  lemma AfterPrefix(log: seq<Request>, sent: seq<Request>)
    ensures (log + sent)[|log|..] == sent
  {
  }

  /** One probe followed by MKCOLs to the first segments: the probe is the
      only HEAD, and the MKCOL targets are those segments in order. */
  lemma ProbeThenMkcols(key: string, base: string, paths: seq<string>, sent: seq<Request>)
    requires |sent| <= |paths|
    requires forall i :: 0 <= i < |sent| ==> sent[i] == Mkcol(base + paths[i])
    ensures HeadTargets([Head(key)] + sent) == [key]
    ensures MkcolTargets([Head(key)] + sent) == Prefixed(base, paths[..|sent|])
  {
    assert ([Head(key)] + sent)[0] == Head(key);
    assert ([Head(key)] + sent)[1..] == sent;
    OnlyMkcols(base, paths, sent);
  }

  /** A run of MKCOLs to the first segments has no HEAD among them, and
      its MKCOL targets are those segments in order. */
  lemma {:induction false} OnlyMkcols(base: string, paths: seq<string>, sent: seq<Request>)
    requires |sent| <= |paths|
    requires forall i :: 0 <= i < |sent| ==> sent[i] == Mkcol(base + paths[i])
    ensures HeadTargets(sent) == []
    ensures MkcolTargets(sent) == Prefixed(base, paths[..|sent|])
    decreases |sent|
  {
    if |sent| > 0 {
      OnlyMkcols(base, paths[1..], sent[1..]);
      assert paths[..|sent|][1..] == paths[1..][..|sent| - 1];
    }
  }

  /** A failure is memoised under the failing segment, not the full path.
      A later call for the same path therefore answers `false` from the
      memo only when that segment is the full path itself; otherwise it
      goes back to the server with a fresh probe. */
  lemma RetryAfterFailure(srv: Server, log: seq<Request>, cache: map<string, bool>, base: string, path: string)
    requires base + path !in cache
    requires CreateDirectory(srv, log, cache, base, path).result.None?
    ensures var r := CreateDirectory(srv, log, cache, base, path);
      var again := CreateDirectory(srv, r.log, r.cache, base, path);
      && (base + path in r.cache ==> again == Outcome(None, r.log, r.cache))
      && (base + path !in r.cache ==> again.log[|r.log|] == Head(base + path))
  {
  }
}

=== FILE: metadata.dfy ===
/** The taken-time resolver (`Metadata::takenTime`): sidecar JSON files
    first, then the image's EXIF date tags, then the file's modification
    time, with every answer memoised per photo path.

    Times are kept abstract: a sidecar value or the modification time is an
    epoch timestamp, and an EXIF value is the tag text together with the
    layout it is parsed with. */
module Metadata {
  import opened Common
  import opened FileSystem

  datatype TakenTime = Epoch(seconds: int) | ExifText(layout: string, text: string)

  /** An EXIF date layout and the pattern it is recognised by: runs of one
      or more digits separated by the given characters, found anywhere in
      the tag text. */
  datatype ExifFormat = ExifFormat(layout: string, separators: string)

  /** `Metadata::EXIF_DATE_SOURCES`, in priority order. */
  const ExifDateSources: seq<string> := ["exif:DateTimeOriginal", "exif:DateTime", "exif:DateTimeDigitized"]

  /** `Metadata::EXIF_FORMATS`, in declared order: `/\d+\-\d+\-\d+_\d+:\d+:\d+/`
      and `/\d+\:\d+\:\d+ \d+:\d+:\d+/`. */
  const ExifFormats: seq<ExifFormat> := [ExifFormat("Y-m-d_G:i:s", "--_::"), ExifFormat("Y:m:d G:i:s", ":: ::")]

  // ---------------------------------------------------------------------
  // Extension and increment suffix
  // ---------------------------------------------------------------------

  /** A photo path split at its last dot; `base` is absent when the path
      has no dot at all (PHP then leaves the second list element unset). */
  datatype PathParts = PathParts(ext: string, base: Option<string>)

  /** `array_map('strrev', explode('.', strrev($photo_path), 2))`. */
  function SplitExtension(path: string): (r: PathParts)
    ensures '.' !in r.ext
    ensures r.base.None? <==> '.' !in path
    ensures r.base.Some? ==> path == r.base.value + "." + r.ext
    ensures r.base.None? ==> r.ext == path
  {
    match LastIndexOf(path, '.')
    case None => PathParts(path, None)
    case Some(i) =>
      assert path == path[..i] + "." + path[i + 1..];
      PathParts(path[i + 1..], Some(path[..i]))
  }

  /** `t` is a parenthesised run of one or more digits, `\(\d+\)`. */
  predicate IsCounter(t: string) {
    && |t| >= 3
    && t[0] == '('
    && t[|t| - 1] == ')'
    && forall k :: 1 <= k < |t| - 1 ==> IsDigit(t[k])
  }

  /** The two groups of `/([^\(]+)(\(\d+\))$/`. */
  datatype SuffixMatch = SuffixMatch(stem: string, counter: string)

  /** A counter that ends `s` starts at the last `(` of `s`. */
  lemma CounterAtLastParen(s: string, j: nat, p: nat)
    requires j <= |s| && IsCounter(s[j..])
    requires p < |s| && s[p] == '(' && '(' !in s[p + 1..]
    ensures j == p
  {
    assert s[j..][0] == '(';
  }

  /** `m` is the leftmost match of `/([^\(]+)(\(\d+\))$/` in `base`: a
      non-empty `(`-free stem, then a counter that ends `base`, the stem
      reaching back to the start or to a `(`. */
  predicate IsSuffixMatch(base: string, m: SuffixMatch) {
    && |m.stem| > 0
    && '(' !in m.stem
    && IsCounter(m.counter)
    && EndsWith(base, m.stem + m.counter)
    && var k := |base| - |m.stem| - |m.counter|;
       k == 0 || base[k - 1] == '('
  }

  /** No match: every counter that ends `base` has a `(` right before it,
      so no non-empty `(`-free stem can precede it. */
  predicate NoSuffixMatch(base: string) {
    forall i, j :: 0 <= i < j <= |base| && IsCounter(base[j..]) ==> '(' in base[i..j]
  }

  /** `preg_match('/([^\(]+)(\(\d+\))$/', base)`. The counter is the
      parenthesised digits that end the text; the stem is the longest
      `(`-free run before it, which the leftmost match selects. */
  function IncrementSuffix(base: string): (m: Option<SuffixMatch>)
    ensures m.Some? ==> IsSuffixMatch(base, m.value)
    ensures m.None? ==> NoSuffixMatch(base)
  {
    match LastIndexOf(base, '(')
    case None =>
      NoCounterWithoutParen(base);
      None
    case Some(p) =>
      if !IsCounter(base[p..]) then
        NoCounterBeforeLastParen(base, p);
        None
      else
        var start := StemStart(base, p);
        if start == p then
          NoStemBeforeCounter(base, p);
          None
        else
          StemBeforeCounter(base, start, p);
          Some(SuffixMatch(base[start..p], base[p..]))
  }

  /** Where the `(`-free run that ends at `p` starts: just after the last
      `(` before `p`, or at 0. */
  function StemStart(base: string, p: nat): (start: nat)
    requires p <= |base|
    ensures start <= p
    ensures start == 0 || base[start - 1] == '('
    ensures '(' !in base[..p][start..]
  {
    match LastIndexOf(base[..p], '(')
    case None => 0
    case Some(q) => q + 1
  }

  lemma NoCounterWithoutParen(base: string)
    requires '(' !in base
    ensures NoSuffixMatch(base)
  {
    forall j | 0 <= j <= |base| && IsCounter(base[j..])
      ensures false
    {
    }
  }

  lemma NoCounterBeforeLastParen(base: string, p: nat)
    requires p < |base| && base[p] == '(' && '(' !in base[p + 1..]
    requires !IsCounter(base[p..])
    ensures NoSuffixMatch(base)
  {
    forall j | 0 <= j <= |base| && IsCounter(base[j..])
      ensures false
    {
      CounterAtLastParen(base, j, p);
    }
  }

  lemma NoStemBeforeCounter(base: string, p: nat)
    requires p < |base| && base[p] == '(' && '(' !in base[p + 1..]
    requires p == 0 || base[p - 1] == '('
    ensures NoSuffixMatch(base)
  {
    forall i, j | 0 <= i < j <= |base| && IsCounter(base[j..])
      ensures '(' in base[i..j]
    {
      CounterAtLastParen(base, j, p);
      assert base[i..j][j - 1 - i] == base[p - 1];
    }
  }

  lemma StemBeforeCounter(base: string, start: nat, p: nat)
    requires start < p < |base| && base[p] == '(' && IsCounter(base[p..])
    requires start == 0 || base[start - 1] == '('
    requires '(' !in base[..p][start..]
    ensures IsSuffixMatch(base, SuffixMatch(base[start..p], base[p..]))
  {
    assert base[..p][start..] == base[start..p];
    assert base[start..p] + base[p..] == base[start..];
  }

  /** The file a `name(n).ext` photo is presumed to duplicate:
      `rtrim(stem) . '.' . ext`. */
  function OriginalOf(ext: string, m: SuffixMatch): string {
    RTrim(m.stem) + "." + ext
  }

  // ---------------------------------------------------------------------
  // Sidecar candidates
  // ---------------------------------------------------------------------

  /** `glob($photo_path . '*.json')`. */
  function DirectSidecars(fs: Fs, path: string): seq<string> {
    Glob(fs.listing, path, ".json")
  }

  /** `glob($matches[1] . '.' . $ext . '*' . $matches[2] . '.json')`: the
      sidecars that carry the photo's counter. */
  function CounterSidecars(fs: Fs, ext: string, m: SuffixMatch): seq<string> {
    Glob(fs.listing, m.stem + "." + ext, m.counter + ".json")
  }

  /** The sidecar files to read, in order (Metadata.php lines 27-39). */
  function Candidates(fs: Fs, path: string): (r: seq<string>)
    ensures forall c :: c in r ==> c in fs.listing && EndsWith(c, ".json")
  {
    var direct := DirectSidecars(fs, path);
    var parts := SplitExtension(path);
    DirectSidecarsAreJson(fs, path);
    if parts.base.None? then direct
    else
      match IncrementSuffix(parts.base.value)
      case None => direct
      case Some(m) =>
        var original := OriginalOf(parts.ext, m);
        var counterparts := CounterSidecars(fs, parts.ext, m);
        CounterSidecarsAreJson(fs, parts.ext, m);
        if !fs.fileExists(original) then direct
        else if fs.size(path) == fs.size(original) then direct + counterparts
        else counterparts
  }

  lemma DirectSidecarsAreJson(fs: Fs, path: string)
    ensures forall c :: c in DirectSidecars(fs, path) ==> c in fs.listing && EndsWith(c, ".json")
  {
    forall c | c in DirectSidecars(fs, path) ensures EndsWith(c, ".json") {
      assert "" + ".json" == ".json";
      MatchEndsWith(c, path, "", ".json");
    }
  }

  lemma CounterSidecarsAreJson(fs: Fs, ext: string, m: SuffixMatch)
    ensures forall c :: c in CounterSidecars(fs, ext, m) ==> c in fs.listing && EndsWith(c, ".json")
  {
    forall c | c in CounterSidecars(fs, ext, m) ensures EndsWith(c, ".json") {
      MatchEndsWith(c, m.stem + "." + ext, m.counter, ".json");
    }
  }

  /** Without an increment suffix the candidates are exactly the sidecars
      named after the photo path. */
  lemma CandidatesWithoutSuffix(fs: Fs, path: string)
    requires var parts := SplitExtension(path);
             parts.base.None? || IncrementSuffix(parts.base.value).None?
    ensures forall c :: c in Candidates(fs, path) <==> c in fs.listing && GlobMatch(c, path, ".json")
  {
  }

  /** With an increment suffix, the presumed original decides the list:
      missing, the list is unchanged; same size, the counter sidecars are
      appended; different size, only the counter sidecars remain. */
  lemma CandidatesWithSuffix(fs: Fs, path: string, ext: string, base: string, m: SuffixMatch)
    requires SplitExtension(path) == PathParts(ext, Some(base))
    requires IncrementSuffix(base) == Some(m)
    ensures !fs.fileExists(OriginalOf(ext, m)) ==>
      Candidates(fs, path) == DirectSidecars(fs, path)
    ensures fs.fileExists(OriginalOf(ext, m)) && fs.size(path) == fs.size(OriginalOf(ext, m)) ==>
      Candidates(fs, path) == DirectSidecars(fs, path) + CounterSidecars(fs, ext, m)
    ensures fs.fileExists(OriginalOf(ext, m)) && fs.size(path) != fs.size(OriginalOf(ext, m)) ==>
      Candidates(fs, path) == CounterSidecars(fs, ext, m)
  {
  }

  // ---------------------------------------------------------------------
  // Sidecar values
  // ---------------------------------------------------------------------

  /** `photoTakenTime` beats `creationTime`; a sidecar with neither yields
      nothing. */
  function SidecarTimestamp(s: Sidecar): (r: Option<int>)
    ensures s.photoTakenTime.Some? ==> r == s.photoTakenTime
    ensures s.photoTakenTime.None? ==> r == s.creationTime
  {
    if s.photoTakenTime.Some? then s.photoTakenTime else s.creationTime
  }

  /** The candidate is a regular file whose sidecar yields a timestamp. */
  predicate Yields(fs: Fs, c: string) {
    fs.isFile(c) && SidecarTimestamp(fs.sidecar(c)).Some?
  }

  /** The loop of Metadata.php lines 44-62: the index of the first candidate
      that yields a timestamp; candidates that are not regular files or that
      yield nothing are skipped. */
  function FirstSidecar(fs: Fs, cs: seq<string>): (r: Option<nat>)
    ensures r.Some? ==> r.value < |cs| && Yields(fs, cs[r.value])
    ensures r.Some? ==> forall k :: 0 <= k < r.value ==> !Yields(fs, cs[k])
    ensures r.None? ==> forall k :: 0 <= k < |cs| ==> !Yields(fs, cs[k])
  {
    if |cs| == 0 then None
    else if Yields(fs, cs[0]) then Some(0)
    else
      match FirstSidecar(fs, cs[1..])
      case None => None
      case Some(i) => Some(i + 1)
  }

  // ---------------------------------------------------------------------
  // EXIF values
  // ---------------------------------------------------------------------

  /** Length of the longest all-digit prefix of `s`. */
  function DigitRun(s: string): (n: nat)
    ensures n <= |s|
    ensures forall k :: 0 <= k < n ==> IsDigit(s[k])
    ensures n < |s| ==> !IsDigit(s[n])
  {
    if |s| == 0 || !IsDigit(s[0]) then 0 else 1 + DigitRun(s[1..])
  }

  /** The pattern `\d+ s0 \d+ s1 ... \d+` matches at the start of `s`. The
      separators are not digits, so each `\d+` takes the whole digit run, as
      the regular-expression engine does. */
  predicate MatchesAt(s: string, separators: string)
    decreases |separators|
  {
    var n := DigitRun(s);
    && n > 0
    && (|separators| == 0 ||
        (n < |s| && s[n] == separators[0] && MatchesAt(s[n + 1..], separators[1..])))
  }

  /** All of `t` is the text `\d+ s0 \d+ s1 ... \d+`. */
  ghost predicate InPattern(t: string, separators: string)
    decreases |separators|
  {
    if |separators| == 0 then
      |t| > 0 && forall k :: 0 <= k < |t| ==> IsDigit(t[k])
    else
      exists n :: 0 < n < |t| && (forall k :: 0 <= k < n ==> IsDigit(t[k]))
        && t[n] == separators[0] && InPattern(t[n + 1..], separators[1..])
  }

  /** The greedy matcher is exact: it succeeds precisely when some prefix of
      the text is an instance of the pattern. */
  lemma MatchesAtIffPrefixInPattern(s: string, separators: string)
    requires forall k :: 0 <= k < |separators| ==> !IsDigit(separators[k])
    ensures MatchesAt(s, separators) <==> exists j :: 0 < j <= |s| && InPattern(s[..j], separators)
  {
    if MatchesAt(s, separators) {
      var j := MatchedPrefixInPattern(s, separators);
    }
    if exists j :: 0 < j <= |s| && InPattern(s[..j], separators) {
      var j :| 0 < j <= |s| && InPattern(s[..j], separators);
      PrefixInPatternMatches(s, separators, j);
    }
  }

  /** A successful greedy match names a prefix that is an instance. */
  lemma {:induction false} MatchedPrefixInPattern(s: string, separators: string) returns (j: nat)
    requires MatchesAt(s, separators)
    ensures 0 < j <= |s| && InPattern(s[..j], separators)
    decreases |separators|
  {
    var n := DigitRun(s);
    if |separators| == 0 {
      j := n;
      assert forall k :: 0 <= k < n ==> IsDigit(s[..j][k]);
    } else {
      var tail := s[n + 1..];
      var j' := MatchedPrefixInPattern(tail, separators[1..]);
      j := n + 1 + j';
      assert s[..j][n + 1..] == tail[..j'];
      assert forall k :: 0 <= k < n ==> IsDigit(s[..j][k]);
    }
  }

  /** An instance of the pattern at the start of the text makes the greedy
      match succeed, because each digit run must end at a separator. */
  lemma {:induction false} PrefixInPatternMatches(s: string, separators: string, j: nat)
    requires forall k :: 0 <= k < |separators| ==> !IsDigit(separators[k])
    requires 0 < j <= |s| && InPattern(s[..j], separators)
    ensures MatchesAt(s, separators)
    decreases |separators|
  {
    var t := s[..j];
    if |separators| == 0 {
      assert IsDigit(t[0]);
    } else {
      var m := FirstRunOfInstance(t, separators);
      DigitRunEndsAtSeparator(s, j, m, separators[0]);
      assert s[m] == t[m] == separators[0];
      assert t[m + 1..] == s[m + 1..][..j - m - 1];
      PrefixInPatternMatches(s[m + 1..], separators[1..], j - m - 1);
    }
  }

  /** The first digit run of an instance, which the first separator ends. */
  lemma FirstRunOfInstance(t: string, separators: string) returns (m: nat)
    requires |separators| > 0 && InPattern(t, separators)
    ensures 0 < m < |t| && (forall k :: 0 <= k < m ==> IsDigit(t[k]))
    ensures t[m] == separators[0] && InPattern(t[m + 1..], separators[1..])
  {
    m :| 0 < m < |t| && (forall k :: 0 <= k < m ==> IsDigit(t[k]))
      && t[m] == separators[0] && InPattern(t[m + 1..], separators[1..]);
  }

  /** A digit run followed by a non-digit is the whole leading digit run. */
  lemma DigitRunEndsAtSeparator(s: string, j: nat, m: nat, sep: char)
    requires m < j <= |s| && !IsDigit(sep)
    requires forall k :: 0 <= k < m ==> IsDigit(s[..j][k])
    requires s[..j][m] == sep
    ensures DigitRun(s) == m
  {
  }

  /** `preg_match($exif_regex, $exif_datetime) === 1`: the pattern occurs
      somewhere in the text. */
  predicate MatchesFormat(text: string, f: ExifFormat) {
    exists i :: 0 <= i < |text| && MatchesAt(text[i..], f.separators)
  }

  /** Index of the first format, in declared order, that recognises `text`. */
  function FirstFormat(text: string, formats: seq<ExifFormat>): (r: Option<nat>)
    ensures r.Some? ==> r.value < |formats| && MatchesFormat(text, formats[r.value])
    ensures r.Some? ==> forall k :: 0 <= k < r.value ==> !MatchesFormat(text, formats[k])
    ensures r.None? ==> forall k :: 0 <= k < |formats| ==> !MatchesFormat(text, formats[k])
  {
    if |formats| == 0 then None
    else if MatchesFormat(text, formats[0]) then Some(0)
    else
      var rest := FirstFormat(text, formats[1..]);
      assert forall k :: 1 <= k < |formats| ==> formats[k] == formats[1..][k - 1];
      if rest.None? then None else Some(rest.value + 1)
  }

  /** The tag is present and one of the formats recognises it. */
  predicate SourceMatches(tags: map<string, string>, source: string, formats: seq<ExifFormat>) {
    source in tags && FirstFormat(tags[source], formats).Some?
  }

  /** Index of the first source, in priority order, whose tag is present
      and recognised by some format. */
  function FirstSource(tags: map<string, string>, sources: seq<string>, formats: seq<ExifFormat>): (r: Option<nat>)
    ensures r.Some? ==> r.value < |sources| && SourceMatches(tags, sources[r.value], formats)
    ensures r.Some? ==> forall k :: 0 <= k < r.value ==> !SourceMatches(tags, sources[k], formats)
    ensures r.None? ==> forall k :: 0 <= k < |sources| ==> !SourceMatches(tags, sources[k], formats)
  {
    if |sources| == 0 then None
    else if SourceMatches(tags, sources[0], formats) then Some(0)
    else
      var rest := FirstSource(tags, sources[1..], formats);
      assert forall k :: 1 <= k < |sources| ==> sources[k] == sources[1..][k - 1];
      if rest.None? then None else Some(rest.value + 1)
  }

  /** The loops of Metadata.php lines 67-79: the first present tag, in
      priority order, that some format recognises, parsed with the first
      such format. The parse itself is kept abstract: a text the pattern
      matches but `createFromFormat` rejects is not told apart here. */
  function ExifTime(tags: map<string, string>, sources: seq<string>, formats: seq<ExifFormat>): (r: Option<TakenTime>)
    ensures r.None? <==> forall k :: 0 <= k < |sources| ==> !SourceMatches(tags, sources[k], formats)
    ensures r.Some? ==>
      (exists i :: 0 <= i < |sources| && SourceMatches(tags, sources[i], formats)
         && (forall k :: 0 <= k < i ==> !SourceMatches(tags, sources[k], formats))
         && r.value == ExifText(formats[FirstFormat(tags[sources[i]], formats).value].layout, tags[sources[i]]))
  {
    match FirstSource(tags, sources, formats)
    case None => None
    case Some(i) =>
      var text := tags[sources[i]];
      Some(ExifText(formats[FirstFormat(text, formats).value].layout, text))
  }

  // ---------------------------------------------------------------------
  // The resolver
  // ---------------------------------------------------------------------

  /** `takenTime` for a path that is not cached yet: the sidecar value, else
      the EXIF value, else the modification time. Opening the image for its
      EXIF tags is the one step modelled as throwing; the `TypeError` of an
      EXIF text that `createFromFormat` rejects is not modelled. */
  function Resolve(fs: Fs, path: string): (r: Result<TakenTime>)
    ensures r.Err? <==> FirstSidecar(fs, Candidates(fs, path)).None? && fs.exif(path).Err?
    ensures r.Err? ==> r.message == fs.exif(path).message
  {
    var cs := Candidates(fs, path);
    match FirstSidecar(fs, cs)
    case Some(i) => Ok(Epoch(SidecarTimestamp(fs.sidecar(cs[i])).value))
    case None =>
      match fs.exif(path)
      case Err(msg) => Err(msg)
      case Ok(tags) =>
        match ExifTime(tags, ExifDateSources, ExifFormats)
        case Some(t) => Ok(t)
        case None => Ok(Epoch(fs.mtime(path)))
  }

  /** The outcome of one `takenTime` call and the cache after it. */
  datatype Lookup = Lookup(time: Result<TakenTime>, cache: map<string, TakenTime>)

  /** `Metadata::takenTime` with its cache made explicit. */
  function TakenTimeOf(cache: map<string, TakenTime>, fs: Fs, path: string): (r: Lookup)
    ensures path in cache ==> r == Lookup(Ok(cache[path]), cache)
    ensures path !in cache ==> r.time == Resolve(fs, path)
    ensures r.time.Ok? ==> r.cache == cache[path := r.time.value]
    ensures r.time.Err? ==> r.cache == cache
  {
    if path in cache then Lookup(Ok(cache[path]), cache)
    else
      var t := Resolve(fs, path);
      if t.Ok? then Lookup(t, cache[path := t.value]) else Lookup(t, cache)
  }

  /** Once a path is resolved, later calls answer from the cache: the same
      value, whatever the filesystem says by then. */
  lemma CachedLookupIsStable(cache: map<string, TakenTime>, fs: Fs, fs': Fs, path: string)
    requires TakenTimeOf(cache, fs, path).time.Ok?
    ensures var r := TakenTimeOf(cache, fs, path);
            TakenTimeOf(r.cache, fs', path) == r
  {
  }

  // ---------------------------------------------------------------------
  // Reference definition: one flat list of attempts, first value wins
  // ---------------------------------------------------------------------

  /** One place a taken time may come from. */
  datatype Attempt = FromSidecar(file: string) | FromExif(source: string, format: ExifFormat) | FromMtime

  function SidecarAttempts(cs: seq<string>): (r: seq<Attempt>)
    ensures |r| == |cs|
  {
    if |cs| == 0 then [] else [FromSidecar(cs[0])] + SidecarAttempts(cs[1..])
  }

  function FormatAttempts(source: string, formats: seq<ExifFormat>): (r: seq<Attempt>)
    ensures |r| == |formats|
  {
    if |formats| == 0 then [] else [FromExif(source, formats[0])] + FormatAttempts(source, formats[1..])
  }

  /** Every (source, format) pair: sources in priority order, formats in
      declared order within each source. */
  function ExifAttempts(sources: seq<string>, formats: seq<ExifFormat>): seq<Attempt> {
    if |sources| == 0 then [] else FormatAttempts(sources[0], formats) + ExifAttempts(sources[1..], formats)
  }

  /** All attempts for a photo, in the order the resolver makes them. */
  function Attempts(fs: Fs, path: string): seq<Attempt> {
    SidecarAttempts(Candidates(fs, path)) + ExifAttempts(ExifDateSources, ExifFormats) + [FromMtime]
  }

  /** What a single attempt yields on its own. */
  function AttemptValue(fs: Fs, path: string, tags: map<string, string>, a: Attempt): Option<TakenTime> {
    match a
    case FromSidecar(c) =>
      if Yields(fs, c) then Some(Epoch(SidecarTimestamp(fs.sidecar(c)).value)) else None
    case FromExif(s, f) =>
      if s in tags && MatchesFormat(tags[s], f) then Some(ExifText(f.layout, tags[s])) else None
    case FromMtime => Some(Epoch(fs.mtime(path)))
  }

  /** `t` is the value of the first attempt that yields one. */
  ghost predicate IsFirstValue(fs: Fs, path: string, tags: map<string, string>, attempts: seq<Attempt>, t: TakenTime) {
    exists i :: 0 <= i < |attempts| && AttemptValue(fs, path, tags, attempts[i]) == Some(t)
      && forall k :: 0 <= k < i ==> AttemptValue(fs, path, tags, attempts[k]).None?
  }

  /** The value of the first attempt in the list that yields one. */
  function FirstValue(fs: Fs, path: string, tags: map<string, string>, attempts: seq<Attempt>): Option<TakenTime> {
    if |attempts| == 0 then None
    else
      match AttemptValue(fs, path, tags, attempts[0])
      case Some(t) => Some(t)
      case None => FirstValue(fs, path, tags, attempts[1..])
  }

  lemma {:induction false} FirstValueIsFirst(fs: Fs, path: string, tags: map<string, string>, attempts: seq<Attempt>)
    requires FirstValue(fs, path, tags, attempts).Some?
    ensures IsFirstValue(fs, path, tags, attempts, FirstValue(fs, path, tags, attempts).value)
  {
    if AttemptValue(fs, path, tags, attempts[0]).None? {
      FirstValueIsFirst(fs, path, tags, attempts[1..]);
      var t := FirstValue(fs, path, tags, attempts).value;
      var i :| 0 <= i < |attempts| - 1 && AttemptValue(fs, path, tags, attempts[1..][i]) == Some(t)
        && forall k :: 0 <= k < i ==> AttemptValue(fs, path, tags, attempts[1..][k]).None?;
      assert AttemptValue(fs, path, tags, attempts[i + 1]) == Some(t);
      assert forall k :: 1 <= k < i + 1 ==> attempts[k] == attempts[1..][k - 1];
    }
  }

  lemma {:induction false} FirstValueOfConcat(fs: Fs, path: string, tags: map<string, string>, a: seq<Attempt>, b: seq<Attempt>)
    ensures FirstValue(fs, path, tags, a + b) ==
      if FirstValue(fs, path, tags, a).Some? then FirstValue(fs, path, tags, a) else FirstValue(fs, path, tags, b)
    decreases |a|
  {
    if |a| == 0 {
      assert a + b == b;
    } else {
      assert (a + b)[0] == a[0];
      assert (a + b)[1..] == a[1..] + b;
      FirstValueOfConcat(fs, path, tags, a[1..], b);
    }
  }

  lemma {:induction false} SidecarAttemptsFirstValue(fs: Fs, path: string, tags: map<string, string>, cs: seq<string>)
    ensures FirstValue(fs, path, tags, SidecarAttempts(cs)) ==
      match FirstSidecar(fs, cs)
      case Some(i) => Some(Epoch(SidecarTimestamp(fs.sidecar(cs[i])).value))
      case None => None
  {
    if |cs| > 0 {
      SidecarAttemptsFirstValue(fs, path, tags, cs[1..]);
      assert SidecarAttempts(cs)[1..] == SidecarAttempts(cs[1..]);
    }
  }

  lemma {:induction false} FormatAttemptsFirstValue(fs: Fs, path: string, tags: map<string, string>, source: string, formats: seq<ExifFormat>)
    ensures FirstValue(fs, path, tags, FormatAttempts(source, formats)) ==
      if SourceMatches(tags, source, formats)
      then Some(ExifText(formats[FirstFormat(tags[source], formats).value].layout, tags[source]))
      else None
  {
    if |formats| > 0 {
      FormatAttemptsFirstValue(fs, path, tags, source, formats[1..]);
      assert FormatAttempts(source, formats)[1..] == FormatAttempts(source, formats[1..]);
    }
  }

  lemma {:induction false} ExifAttemptsFirstValue(fs: Fs, path: string, tags: map<string, string>, sources: seq<string>, formats: seq<ExifFormat>)
    ensures FirstValue(fs, path, tags, ExifAttempts(sources, formats)) == ExifTime(tags, sources, formats)
  {
    if |sources| > 0 {
      FormatAttemptsFirstValue(fs, path, tags, sources[0], formats);
      ExifAttemptsFirstValue(fs, path, tags, sources[1..], formats);
      FirstValueOfConcat(fs, path, tags, FormatAttempts(sources[0], formats), ExifAttempts(sources[1..], formats));
    }
  }

  /** Whenever the image can be opened, the resolver returns the value of the
      first attempt, in the flat order sidecars, (tag, format) pairs,
      modification time, that yields one. */
  lemma ResolveIsFirstValue(fs: Fs, path: string)
    requires fs.exif(path).Ok?
    ensures Resolve(fs, path).Ok?
    ensures IsFirstValue(fs, path, fs.exif(path).value, Attempts(fs, path), Resolve(fs, path).value)
  {
    var tags := fs.exif(path).value;
    var side := SidecarAttempts(Candidates(fs, path));
    var exif := ExifAttempts(ExifDateSources, ExifFormats);
    SidecarAttemptsFirstValue(fs, path, tags, Candidates(fs, path));
    ExifAttemptsFirstValue(fs, path, tags, ExifDateSources, ExifFormats);
    FirstValueOfConcat(fs, path, tags, side, exif);
    FirstValueOfConcat(fs, path, tags, side + exif, [FromMtime]);
    assert FirstValue(fs, path, tags, [FromMtime]) == Some(Epoch(fs.mtime(path)));
    assert FirstValue(fs, path, tags, Attempts(fs, path)) == Some(Resolve(fs, path).value);
    FirstValueIsFirst(fs, path, tags, Attempts(fs, path));
  }

  /** With no sidecar value and no recognised EXIF tag, the taken time is
      the file's modification time. */
  lemma MtimeFallback(fs: Fs, path: string)
    requires forall c :: c in Candidates(fs, path) ==> !Yields(fs, c)
    requires fs.exif(path).Ok?
    requires forall k :: 0 <= k < |ExifDateSources| ==> !SourceMatches(fs.exif(path).value, ExifDateSources[k], ExifFormats)
    ensures Resolve(fs, path) == Ok(Epoch(fs.mtime(path)))
  {
  }
}

=== FILE: progress.dfy ===
/** `Progress`: the record of what was already migrated, one entry per
    (migration root, content hash). An entry is either a legacy `.txt`
    file holding the remote path, or a `.json` file holding the remote
    path and the albums the photo was added to. */
module Progress {
  import opened Common
  import opened FileSystem

  /** A `.json` record: `[remotePath, albums]`. */
  datatype Record = Record(remotePath: string, albums: seq<string>)

  /** The progress directory's contents, keyed by the record path without
      its `.txt` or `.json` extension. */
  datatype Store = Store(txt: map<string, string>, json: map<string, Record>)

  /** `Progress::path`: the record lives in `.progress` under the photo's
      grandparent directory and is named by the photo's content hash. */
  function RecordPath(photo: string, hash: string): string {
    Dirname(Dirname(photo)) + "/.progress/" + hash
  }

  /** The key depends only on the grandparent directory and the hash: the
      same content in two album directories of one root shares a record. */
  lemma SiblingsShareRecord(root: string, album1: string, album2: string, name1: string, name2: string, hash: string)
    requires |root| > 0
    requires '/' !in album1 && '/' !in album2 && '/' !in name1 && '/' !in name2
    ensures RecordPath(root + "/" + album1 + "/" + name1, hash) == RecordPath(root + "/" + album2 + "/" + name2, hash)
    ensures RecordPath(root + "/" + album1 + "/" + name1, hash) == root + "/.progress/" + hash
  {
    DirnameOfChild(root + "/" + album1, name1);
    DirnameOfChild(root, album1);
    DirnameOfChild(root + "/" + album2, name2);
    DirnameOfChild(root, album2);
  }

  /** The record key of a photo: `Progress::path` without the extension. */
  function KeyOf(fs: Fs, photo: string): string {
    RecordPath(photo, fs.md5(photo))
  }

  /** `Progress::check` on a record key, without the migration of
      per-directory legacy records: a legacy record is read as
      `[content, []]` and wins over a `.json` record. */
  function CheckAt(store: Store, key: string): (r: Option<Record>)
    ensures r.None? <==> key !in store.txt && key !in store.json
    ensures key in store.txt ==> r == Some(Record(store.txt[key], []))
    ensures key !in store.txt && key in store.json ==> r == Some(store.json[key])
  {
    if key in store.txt then Some(Record(store.txt[key], []))
    else if key in store.json then Some(store.json[key])
    else None
  }

  /** `Progress::check`. */
  function Check(store: Store, fs: Fs, photo: string): Option<Record> {
    CheckAt(store, KeyOf(fs, photo))
  }

  /** PHP `array_unique` on a list: the first occurrence of each value is
      kept, in order. */
  function Unique(s: seq<string>): (r: seq<string>)
    ensures NoDuplicates(r)
    ensures forall x :: x in r <==> x in s
    ensures |r| <= |s|
    decreases |s|
  {
    if |s| == 0 then []
    else
      var u := Unique(s[..|s| - 1]);
      assert forall x :: x in s <==> x in s[..|s| - 1] || x == s[|s| - 1] by {
        assert s == s[..|s| - 1] + [s[|s| - 1]];
      }
      if s[|s| - 1] in u then u else u + [s[|s| - 1]]
  }

  /** A list without duplicates is left as it is. */
  lemma {:induction false} UniqueOfDistinct(s: seq<string>)
    requires NoDuplicates(s)
    ensures Unique(s) == s
    decreases |s|
  {
    if |s| > 0 {
      UniqueOfDistinct(s[..|s| - 1]);
      assert s == s[..|s| - 1] + [s[|s| - 1]];
    }
  }

  /** Appending a value already present does not change a list without
      duplicates. */
  lemma AppendPresent(s: seq<string>, x: string)
    requires NoDuplicates(s) && x in s
    ensures Unique(s + [x]) == s
  {
    assert (s + [x])[..|s|] == s;
    UniqueOfDistinct(s);
  }

  /** The albums recorded under a key so far. */
  function AlbumsAt(store: Store, key: string): seq<string> {
    match CheckAt(store, key)
    case None => []
    case Some(rec) => rec.albums
  }

  /** The album list `update` writes: the recorded albums, the new album
      appended when there is one, duplicates removed. */
  function Merge(albums: seq<string>, album: Option<string>): (r: seq<string>)
    ensures NoDuplicates(r)
    ensures forall a :: a in r <==> a in albums || album == Some(a)
  {
    Unique(if album.Some? then albums + [album.value] else albums)
  }

  /** `Progress::update` on a record key: read the record, merge the album,
      drop any legacy record and write the `.json` record with the given
      remote path. Every other key keeps its records. */
  function UpdateAt(store: Store, key: string, remotePath: string, album: Option<string>): (r: Store)
    ensures key !in r.txt
    ensures key in r.json && r.json[key].remotePath == remotePath
    ensures forall k :: k != key ==> (k in r.txt <==> k in store.txt) && (k in r.json <==> k in store.json)
    ensures forall k :: k != key && k in store.txt ==> r.txt[k] == store.txt[k]
    ensures forall k :: k != key && k in store.json ==> r.json[k] == store.json[k]
  {
    Store(store.txt - {key}, store.json[key := Record(remotePath, Merge(AlbumsAt(store, key), album))])
  }

  /** `Progress::update`. */
  function Update(store: Store, fs: Fs, photo: string, remotePath: string, album: Option<string>): Store {
    UpdateAt(store, KeyOf(fs, photo), remotePath, album)
  }

  /** After `update`, `check` reads back the new record: the given remote
      path, every album recorded before, the new album if any, and no album
      twice. */
  lemma UpdateThenCheck(store: Store, key: string, remotePath: string, album: Option<string>)
    ensures var before := AlbumsAt(store, key);
      var rec := CheckAt(UpdateAt(store, key, remotePath, album), key);
      && rec.Some?
      && rec.value.remotePath == remotePath
      && NoDuplicates(rec.value.albums)
      && (forall a :: a in before ==> a in rec.value.albums)
      && (album.Some? ==> album.value in rec.value.albums)
      && (forall a :: a in rec.value.albums ==> a in before || album == Some(a))
  {
  }

  /** Without an album, `update` keeps the recorded album set; and it keeps
      the recorded list itself when that list has no duplicates. */
  lemma UpdateWithoutAlbum(store: Store, key: string, remotePath: string)
    ensures var before := AlbumsAt(store, key);
      var rec := CheckAt(UpdateAt(store, key, remotePath, None), key);
      && rec.Some?
      && (forall a :: a in rec.value.albums <==> a in before)
      && (NoDuplicates(before) ==> rec.value.albums == before)
  {
    var before := AlbumsAt(store, key);
    if NoDuplicates(before) {
      UniqueOfDistinct(before);
    }
  }

  /** Merging the same album into an already merged list changes nothing. */
  lemma MergeIsIdempotent(albums: seq<string>, album: Option<string>)
    ensures Merge(Merge(albums, album), album) == Merge(albums, album)
  {
    var merged := Merge(albums, album);
    UniqueOfDistinct(merged);
    if album.Some? {
      AppendPresent(merged, album.value);
    }
  }

  /** Recording the same photo, path and album twice is the same as
      recording it once. */
  lemma UpdateIsIdempotent(store: Store, key: string, remotePath: string, album: Option<string>)
    ensures var once := UpdateAt(store, key, remotePath, album);
      UpdateAt(once, key, remotePath, album) == once
  {
    MergeIsIdempotent(AlbumsAt(store, key), album);
    RewriteKeepsLegacy(store, key, remotePath, album);
    RewriteKeepsRecord(store, key, remotePath, album);
  }

  lemma RewriteKeepsLegacy(store: Store, key: string, remotePath: string, album: Option<string>)
    ensures var once := UpdateAt(store, key, remotePath, album);
      UpdateAt(once, key, remotePath, album).txt == once.txt
  {
    var once := UpdateAt(store, key, remotePath, album);
    assert once.txt - {key} == once.txt;
  }

  lemma RewriteKeepsRecord(store: Store, key: string, remotePath: string, album: Option<string>)
    requires Merge(Merge(AlbumsAt(store, key), album), album) == Merge(AlbumsAt(store, key), album)
    ensures var once := UpdateAt(store, key, remotePath, album);
      UpdateAt(once, key, remotePath, album).json == once.json
  {
    var once := UpdateAt(store, key, remotePath, album);
    var merged := Merge(AlbumsAt(store, key), album);
    assert once.json[key] == Record(remotePath, merged);
    AlbumsAfterUpdate(store, key, remotePath, album);
    assert UpdateAt(once, key, remotePath, album).json == once.json[key := Record(remotePath, merged)];
    RewriteSameEntry(once.json, key, Record(remotePath, merged));
  }

  lemma RewriteSameEntry(m: map<string, Record>, key: string, rec: Record)
    requires key in m && m[key] == rec
    ensures m[key := rec] == m
  {
  }

  lemma AlbumsAfterUpdate(store: Store, key: string, remotePath: string, album: Option<string>)
    ensures AlbumsAt(UpdateAt(store, key, remotePath, album), key) == Merge(AlbumsAt(store, key), album)
  {
  }
}

=== FILE: remote.dfy ===
/** The WebDAV server as an oracle, and the trace of requests sent to it.

    Every request goes out through `Send`, which appends it to the trace;
    the server's answer may depend on everything sent before, so a HEAD
    after a MKCOL can see the new collection. */
module Remote {
  import opened Common
  import Metadata

  datatype Request =
    | Head(path: string)
    | Mkcol(path: string)
    // the upload, with its X-OC-MTime, X-OC-CTime and OC-Total-Length headers
    | Put(path: string, mtime: int, ctime: Metadata.TakenTime, length: int)
    | Copy(path: string, destination: string)
    | Move(path: string, destination: string)
    // a PROPFIND with its Depth header
    | PropFind(path: string, depth: int)

  /** A response: the status code, the `content-length` header values
      (absent when the header is missing) and, for PROPFIND, the member
      hrefs. */
  datatype Response = Response(status: int, contentLength: Option<seq<int>>, members: set<string>)

  /** The server: given the requests sent so far and the next one, its
      answer. */
  type Server = (seq<Request>, Request) -> Response

  datatype Sent = Sent(response: Response, log: seq<Request>)

  /** Issue one request. */
  function Send(srv: Server, log: seq<Request>, req: Request): (r: Sent)
    ensures r.log == log + [req]
  {
    Sent(srv(log, req), log + [req])
  }

  /** The status range the migrator treats as success, [200, 399]. */
  predicate IsSuccess(status: int) {
    200 <= status <= 399
  }

  /** The target of a HEAD request, as a list of at most one path. */
  function HeadOf(q: Request): seq<string> {
    if q.Head? then [q.path] else []
  }

  /** The target of a MKCOL request, as a list of at most one path. */
  function MkcolOf(q: Request): seq<string> {
    if q.Mkcol? then [q.path] else []
  }

  /** The targets of the HEAD requests in a trace, in order. */
  function HeadTargets(reqs: seq<Request>): (r: seq<string>)
    ensures |r| <= |reqs|
  {
    if |reqs| == 0 then [] else HeadOf(reqs[0]) + HeadTargets(reqs[1..])
  }

  /** The targets of the MKCOL requests in a trace, in order. */
  function MkcolTargets(reqs: seq<Request>): (r: seq<string>)
    ensures |r| <= |reqs|
  {
    if |reqs| == 0 then [] else MkcolOf(reqs[0]) + MkcolTargets(reqs[1..])
  }

  lemma {:induction false} HeadTargetsOfConcat(a: seq<Request>, b: seq<Request>)
    ensures HeadTargets(a + b) == HeadTargets(a) + HeadTargets(b)
    decreases |a|
  {
    if |a| == 0 {
      assert a + b == b;
    } else {
      assert (a + b)[0] == a[0];
      assert (a + b)[1..] == a[1..] + b;
      HeadTargetsOfConcat(a[1..], b);
      SeqAssoc(HeadOf(a[0]), HeadTargets(a[1..]), HeadTargets(b));
    }
  }

  lemma {:induction false} MkcolTargetsOfConcat(a: seq<Request>, b: seq<Request>)
    ensures MkcolTargets(a + b) == MkcolTargets(a) + MkcolTargets(b)
    decreases |a|
  {
    if |a| == 0 {
      assert a + b == b;
    } else {
      assert (a + b)[0] == a[0];
      assert (a + b)[1..] == a[1..] + b;
      MkcolTargetsOfConcat(a[1..], b);
      SeqAssoc(MkcolOf(a[0]), MkcolTargets(a[1..]), MkcolTargets(b));
    }
  }

  lemma SeqAssoc(x: seq<string>, y: seq<string>, z: seq<string>)
    ensures x + (y + z) == (x + y) + z
  {
  }

  /** Each path prefixed with `base`. */
  function Prefixed(base: string, paths: seq<string>): (r: seq<string>)
    ensures |r| == |paths|
    ensures forall k :: 0 <= k < |paths| ==> r[k] == base + paths[k]
  {
    if |paths| == 0 then [] else [base + paths[0]] + Prefixed(base, paths[1..])
  }
}

=== FILE: remote_directory.dfy ===
/** `RemoteDirectory`: the year/month collection the directory job uploads
    into, created segment by segment, with successes memoised. */
module RemoteDirectory {
  import opened Common
  import opened Remote

  /** The outcome of one `mkdir` and the requests it sent. */
  datatype Made = Made(ok: bool, sent: seq<Request>)

  /** `RemoteDirectory::mkdir`: probe the collection; only a 404 leads to a
      MKCOL, whose status decides the outcome. */
  function Mkdir(srv: Server, log: seq<Request>, base: string, path: string): (r: Made)
    ensures var target := base + path;
      && (srv(log, Head(target)).status != 404 ==> r == Made(true, [Head(target)]))
      && (srv(log, Head(target)).status == 404 ==>
            && r.sent == [Head(target), Mkcol(target)]
            && (r.ok <==> IsSuccess(srv(log + [Head(target)], Mkcol(target)).status)))
  {
    var head := Send(srv, log, Head(base + path));
    if head.response.status != 404 then Made(true, [Head(base + path)])
    else
      var made := Send(srv, head.log, Mkcol(base + path));
      Made(IsSuccess(made.response.status), [Head(base + path), Mkcol(base + path)])
  }

  /** The running prefixes `acc/p0`, `acc/p0/p1`, ... of the parts. */
  function Prefixes(acc: string, parts: seq<string>): (r: seq<string>)
    ensures |r| == |parts|
    ensures |parts| > 0 ==> r[0] == acc + "/" + parts[0]
    ensures |parts| > 0 ==> r[|r| - 1] == acc + "/" + Join(parts, '/')
    decreases |parts|
  {
    if |parts| == 0 then []
    else
      var first := acc + "/" + parts[0];
      var rest := Prefixes(first, parts[1..]);
      var r := [first] + rest;
      assert forall k :: 1 <= k < |r| ==> r[k] == rest[k - 1];
      r
  }

  /** Each path, followed by `/`, starts the next one. */
  predicate EachParentOfNext(r: seq<string>) {
    forall k :: 0 <= k < |r| - 1 ==> r[k] + "/" <= r[k + 1]
  }

  /** The collections `create` makes, root to leaf: every `/`-joined prefix
      of `explode('/', ltrim($remote_path, '/'))`, each with a leading `/`.
      The last one is the whole path with exactly one leading slash, and each
      one is the parent of the next. */
  function SegmentPaths(path: string): (r: seq<string>)
    ensures |r| > 0
    ensures |r| == |Split(LTrim(path, '/'), '/')|
    ensures r[|r| - 1] == "/" + LTrim(path, '/')
    ensures EachParentOfNext(r)
  {
    var parts := Split(LTrim(path, '/'), '/');
    var r := Prefixes("", parts);
    assert r[|r| - 1] == "" + "/" + Join(parts, '/') == "/" + LTrim(path, '/');
    PrefixesNest("", parts, r);
    r
  }

  /** The `k`-th collection is `/` followed by the first `k + 1` parts of
      the path, joined with `/`. */
  lemma SegmentPathsAreJoins(path: string)
    ensures var r := SegmentPaths(path);
      var parts := Split(LTrim(path, '/'), '/');
      && |r| == |parts|
      && forall k :: 0 <= k < |r| ==> r[k] == "/" + Join(parts[..k + 1], '/')
  {
    PrefixesAreAllJoins("", Split(LTrim(path, '/'), '/'), SegmentPaths(path));
  }

  /** Every running prefix is `acc/` followed by the parts so far. */
  lemma PrefixesAreAllJoins(acc: string, parts: seq<string>, r: seq<string>)
    requires r == Prefixes(acc, parts)
    ensures forall k :: 0 <= k < |r| ==> r[k] == acc + "/" + Join(parts[..k + 1], '/')
  {
    forall k | 0 <= k < |r|
      ensures r[k] == acc + "/" + Join(parts[..k + 1], '/')
    {
      PrefixesAreJoins(acc, parts, k);
    }
  }

  /** Each running prefix, with a `/` after it, starts the next one. */
  lemma PrefixesNest(acc: string, parts: seq<string>, r: seq<string>)
    requires r == Prefixes(acc, parts)
    ensures EachParentOfNext(r)
  {
    forall k | 0 <= k < |r| - 1
      ensures r[k] + "/" <= r[k + 1]
    {
      PrefixesStep(acc, parts, k);
    }
  }

  /** Each running prefix extends the one before it by `/` and one part. */
  lemma {:induction false} PrefixesStep(acc: string, parts: seq<string>, k: nat)
    requires k < |parts| - 1
    ensures Prefixes(acc, parts)[k + 1] == Prefixes(acc, parts)[k] + "/" + parts[k + 1]
    decreases |parts|
  {
    if k > 0 {
      PrefixesStep(acc + "/" + parts[0], parts[1..], k - 1);
    }
  }

  /** The `k`-th running prefix is `acc/` followed by the first `k + 1`
      parts joined with `/`. */
  lemma {:induction false} PrefixesAreJoins(acc: string, parts: seq<string>, k: nat)
    requires k < |parts|
    ensures Prefixes(acc, parts)[k] == acc + "/" + Join(parts[..k + 1], '/')
    decreases |parts|
  {
    if k > 0 {
      var first := acc + "/" + parts[0];
      PrefixesAreJoins(first, parts[1..], k - 1);
      assert parts[..k + 1][1..] == parts[1..][..k];
      JoinCons(parts[..k + 1], first, acc);
    } else {
      assert parts[..1] == [parts[0]];
    }
  }

  lemma JoinCons(ps: seq<string>, first: string, acc: string)
    requires |ps| > 1 && first == acc + "/" + ps[0]
    ensures first + "/" + Join(ps[1..], '/') == acc + "/" + Join(ps, '/')
  {
    assert Join(ps, '/') == ps[0] + "/" + Join(ps[1..], '/');
  }

  /** The `/Y/m` collection of a taken time is made in two steps, the year
      and then the month inside it. */
  lemma YearMonthSegments(year: string, month: string)
    requires |year| > 0 && '/' !in year && '/' !in month
    ensures SegmentPaths("/" + year + "/" + month) == ["/" + year, "/" + year + "/" + month]
  {
    var path := "/" + year + "/" + month;
    assert path[1..] == year + "/" + month;
    assert LTrim(path[1..], '/') == year + "/" + month;
    assert LTrim(path, '/') == year + "/" + month;
    SplitAround(year, month, '/');
    SplitNoSeparator(month, '/');
    var r := SegmentPaths(path);
    assert |r| == 2;
    assert r[1] == "/" + year + "/" + month;
    assert r[0] == "/" + Join([year], '/');
  }

  /** The result of walking a list of segments: the index of the segment
      that failed, if one did, and the requests sent. */
  datatype Walk = Walk(failedAt: Option<nat>, sent: seq<Request>)

  /** The segment at `k` was probed with a 404 and its MKCOL was refused,
      and those were the last two requests sent. */
  predicate FailedLast(srv: Server, log: seq<Request>, sent: seq<Request>, t: string) {
    && |sent| >= 2
    && sent[|sent| - 2] == Head(t) && sent[|sent| - 1] == Mkcol(t)
    && srv(log + sent[..|sent| - 2], Head(t)).status == 404
    && !IsSuccess(srv(log + sent[..|sent| - 1], Mkcol(t)).status)
  }

  /** A refused `mkdir` ends with its probe and its refused MKCOL. */
  lemma MkdirFailedLast(srv: Server, log: seq<Request>, base: string, path: string)
    requires !Mkdir(srv, log, base, path).ok
    ensures FailedLast(srv, log, Mkdir(srv, log, base, path).sent, base + path)
  {
    var sent := Mkdir(srv, log, base, path).sent;
    assert sent[..0] == [] && sent[..1] == [Head(base + path)];
    assert log + sent[..0] == log;
  }

  lemma FailedLastAfter(srv: Server, log: seq<Request>, a: seq<Request>, b: seq<Request>, t: string)
    requires FailedLast(srv, log + a, b, t)
    ensures FailedLast(srv, log, a + b, t)
  {
    var sent := a + b;
    assert sent[..|sent| - 2] == a + b[..|b| - 2];
    assert sent[..|sent| - 1] == a + b[..|b| - 1];
    assert log + sent[..|sent| - 2] == (log + a) + b[..|b| - 2];
    assert log + sent[..|sent| - 1] == (log + a) + b[..|b| - 1];
  }

  /** The loop of RemoteDirectory.php lines 38-43: `mkdir` each segment in
      turn, stopping at the first one that fails. */
  function MkdirEach(srv: Server, log: seq<Request>, base: string, paths: seq<string>): (r: Walk)
    ensures r.failedAt.Some? ==> r.failedAt.value < |paths|
    ensures forall q :: q in r.sent ==> q.Head? || q.Mkcol?
    decreases |paths|
  {
    if |paths| == 0 then
      Walk(None, [])
    else
      var made := Mkdir(srv, log, base, paths[0]);
      if !made.ok then
        Walk(Some(0), made.sent)
      else
        var rest := MkdirEach(srv, log + made.sent, base, paths[1..]);
        Walk(if rest.failedAt.None? then None else Some(rest.failedAt.value + 1), made.sent + rest.sent)
  }

  /** The walk probes the segments root to leaf: all of them when none
      fails, and otherwise exactly those up to the first failing one. */
  lemma {:induction false} MkdirEachProbesInOrder(srv: Server, log: seq<Request>, base: string, paths: seq<string>)
    ensures var r := MkdirEach(srv, log, base, paths);
      && (r.failedAt.None? ==> HeadTargets(r.sent) == Prefixed(base, paths))
      && (r.failedAt.Some? ==> HeadTargets(r.sent) == Prefixed(base, paths[..r.failedAt.value + 1]))
    decreases |paths|
  {
    if |paths| > 0 {
      var made := Mkdir(srv, log, base, paths[0]);
      MkdirProbesOnce(srv, log, base, paths[0]);
      if !made.ok {
        PrefixedCons(base, paths, 0);
      } else {
        var rest := MkdirEach(srv, log + made.sent, base, paths[1..]);
        MkdirEachProbesInOrder(srv, log + made.sent, base, paths[1..]);
        HeadTargetsOfConcat(made.sent, rest.sent);
        if rest.failedAt.Some? {
          PrefixedCons(base, paths, rest.failedAt.value + 1);
        } else {
          PrefixedCons(base, paths, |paths| - 1);
          assert paths[..|paths|] == paths;
          assert paths[1..][..|paths| - 1] == paths[1..];
        }
      }
    }
  }

  lemma MkdirProbesOnce(srv: Server, log: seq<Request>, base: string, path: string)
    ensures HeadTargets(Mkdir(srv, log, base, path).sent) == [base + path]
  {
  }

  lemma PrefixedCons(base: string, paths: seq<string>, k: nat)
    requires k < |paths|
    ensures Prefixed(base, paths[..k + 1]) == [base + paths[0]] + Prefixed(base, paths[1..][..k])
  {
    assert paths[..k + 1][1..] == paths[1..][..k];
  }

  /** A walk that fails ends with the failing segment's 404 probe and its
      refused MKCOL. */
  lemma {:induction false} MkdirEachStopsAtFailure(srv: Server, log: seq<Request>, base: string, paths: seq<string>)
    requires MkdirEach(srv, log, base, paths).failedAt.Some?
    ensures var r := MkdirEach(srv, log, base, paths);
      FailedLast(srv, log, r.sent, base + paths[r.failedAt.value])
    decreases |paths|
  {
    var made := Mkdir(srv, log, base, paths[0]);
    if !made.ok {
      MkdirFailedLast(srv, log, base, paths[0]);
    } else {
      var rest := MkdirEach(srv, log + made.sent, base, paths[1..]);
      MkdirEachStopsAtFailure(srv, log + made.sent, base, paths[1..]);
      FailedLastAfter(srv, log, made.sent, rest.sent, base + paths[rest.failedAt.value + 1]);
    }
  }

  /** The outcome of `create` (the path, or the exception it throws), the
      trace and the memo after it. */
  datatype Created = Created(result: Result<string>, log: seq<Request>, cache: map<string, bool>)

  /** The exception text of RemoteDirectory.php line 41. `$response` is not
      defined in `create`, so the status part is empty. */
  function CreateFailure(path: string): string {
    "Failed creating \"" + path + "\" remotely \"\""
  }

  /** Only successes are memoised. */
  predicate OnlySuccesses(cache: map<string, bool>) {
    forall k :: k in cache ==> cache[k]
  }

  /** `RemoteDirectory::create` with its static memo made explicit. A
      memoised path is answered without a request (a memoised `false` would
      come back as the empty string, PHP's coercion of `false` to the
      declared `string` return type); otherwise every segment is made in
      turn and only a full success is memoised. */
  function Create(srv: Server, log: seq<Request>, cache: map<string, bool>, base: string, path: string): (r: Created)
    ensures base + path in cache ==>
      r == Created(Ok(if cache[base + path] then base + path else ""), log, cache)
    ensures base + path !in cache ==>
      && r.log == log + MkdirEach(srv, log, base, SegmentPaths(path)).sent
      && (r.result.Ok? <==> MkdirEach(srv, log, base, SegmentPaths(path)).failedAt.None?)
    ensures base + path !in cache && r.result.Ok? ==>
      r.result.value == base + path && r.cache == cache[base + path := true]
    ensures r.result.Err? ==> r.cache == cache && r.result.message == CreateFailure(path)
    ensures OnlySuccesses(cache) ==> OnlySuccesses(r.cache)
  {
    var key := base + path;
    if key in cache then
      Created(Ok(if cache[key] then key else ""), log, cache)
    else
      var walk := MkdirEach(srv, log, base, SegmentPaths(path));
      if walk.failedAt.Some? then Created(Err(CreateFailure(path)), log + walk.sent, cache)
      else Created(Ok(key), log + walk.sent, cache[key := true])
  }

  /** A path `create` has not memoised is probed segment by segment, root to
      leaf: on success every segment is probed, on failure exactly those up
      to the failing one, whose refused MKCOL was the last request. */
  lemma CreateProbesRootToLeaf(srv: Server, log: seq<Request>, cache: map<string, bool>, base: string, path: string)
    requires base + path !in cache
    ensures var r := Create(srv, log, cache, base, path);
      var segments := SegmentPaths(path);
      && |log| <= |r.log| && r.log[..|log|] == log
      && (r.result.Ok? ==> HeadTargets(r.log[|log|..]) == Prefixed(base, segments))
      && (r.result.Err? ==>
            exists k :: 0 <= k < |segments|
              && HeadTargets(r.log[|log|..]) == Prefixed(base, segments[..k + 1])
              && FailedLast(srv, log, r.log[|log|..], base + segments[k]))
  {
    var r := Create(srv, log, cache, base, path);
    var walk := MkdirEach(srv, log, base, SegmentPaths(path));
    MkdirEachProbesInOrder(srv, log, base, SegmentPaths(path));
    if walk.failedAt.Some? {
      MkdirEachStopsAtFailure(srv, log, base, SegmentPaths(path));
    }
    assert r.log[|log|..] == walk.sent;
  }

  /** A failed path is not memoised, so the next call for it goes back to
      the server, starting again at the first segment. */
  lemma CreateRetriesAfterFailure(srv: Server, log: seq<Request>, cache: map<string, bool>, base: string, path: string)
    requires base + path !in cache
    requires Create(srv, log, cache, base, path).result.Err?
    ensures var r := Create(srv, log, cache, base, path);
      var again := Create(srv, r.log, r.cache, base, path);
      && |again.log| > |r.log|
      && again.log[|r.log|] == Head(base + SegmentPaths(path)[0])
  {
    var r := Create(srv, log, cache, base, path);
    var segments := SegmentPaths(path);
    var again := MkdirEach(srv, r.log, base, segments);
    var first := Mkdir(srv, r.log, base, segments[0]);
    assert again.sent[0] == Head(base + segments[0]) by {
      if first.ok {
        var rest := MkdirEach(srv, r.log + first.sent, base, segments[1..]);
        assert again.sent == first.sent + rest.sent;
      }
    }
  }
}

=== FILE: remote_file.dfy ===
/** `RemoteFile::upload`: send the photo with a PUT, then check with a HEAD
    that the server holds a file of the local size. */
module RemoteFile {
  import opened Common
  import opened Remote
  import opened FileSystem
  import Metadata

  /** The outcome of an upload (`true`, or the exception it throws), the
      trace and the taken-time cache after it. */
  datatype Uploaded = Uploaded(result: Result<bool>, log: seq<Request>, times: map<string, Metadata.TakenTime>)

  function UploadFailed(putStatus: int): string {
    "Upload failed, invalid response code (" + IntToString(putStatus) + ") received"
  }

  /** The HEAD-failure message. It reports the status of the PUT, not that
      of the HEAD, as RemoteFile.php line 24 does. */
  function NotValidated(putStatus: int): string {
    "Could not validate remote file, invalid response code (" + IntToString(putStatus) + ") received"
  }

  const MissingLength := "Could not validate remote file, missing content-length headers"
  const SizeDiffers := "Could not validate remote file, differ from local size"

  /** The first `content-length` value, read as PHP's `(int)` reads a
      missing first element: 0. */
  function FirstLength(values: seq<int>): int {
    if |values| == 0 then 0 else values[0]
  }

  /** The checks of RemoteFile.php lines 23-31 on the HEAD response after a
      successful PUT, in their order. */
  function Verify(putStatus: int, head: Response, localSize: int): (r: Result<bool>)
    ensures r.Ok? ==> r.value
    ensures r.Ok? <==> head.status == 200 && head.contentLength.Some? && FirstLength(head.contentLength.value) == localSize
    ensures head.status != 200 ==> r == Err(NotValidated(putStatus))
    ensures head.status == 200 && head.contentLength.None? ==> r == Err(MissingLength)
    ensures head.status == 200 && head.contentLength.Some? && FirstLength(head.contentLength.value) != localSize ==>
      r == Err(SizeDiffers)
  {
    if head.status != 200 then Err(NotValidated(putStatus))
    else if head.contentLength.None? then Err(MissingLength)
    else if localSize != FirstLength(head.contentLength.value) then Err(SizeDiffers)
    else Ok(true)
  }

  /** The PUT request for `source`: its modification time, its taken time
      and its size travel as headers. */
  function PutOf(fs: Fs, source: string, target: string, taken: Metadata.TakenTime): Request {
    Put(target, fs.mtime(source), taken, fs.size(source))
  }

  /** `RemoteFile::upload`. The taken time is looked up while the PUT is
      built, so when that lookup throws nothing is sent. */
  function Upload(srv: Server, log: seq<Request>, fs: Fs, times: map<string, Metadata.TakenTime>, source: string, target: string): (r: Uploaded)
    ensures var lookup := Metadata.TakenTimeOf(times, fs, source);
      && r.times == lookup.cache
      && (lookup.time.Err? ==> r.result == Err(lookup.time.message) && r.log == log)
  {
    var lookup := Metadata.TakenTimeOf(times, fs, source);
    match lookup.time
    case Err(msg) => Uploaded(Err(msg), log, lookup.cache)
    case Ok(taken) =>
      var put := Send(srv, log, PutOf(fs, source, target, taken));
      var status := put.response.status;
      if !IsSuccess(status) then
        Uploaded(Err(UploadFailed(status)), put.log, lookup.cache)
      else
        var head := Send(srv, put.log, Head(target));
        Uploaded(Verify(status, head.response, fs.size(source)), head.log, lookup.cache)
  }

  /** An upload whose taken time is known sends exactly one PUT, and a HEAD
      after it exactly when the PUT succeeded. A refused PUT throws with its
      status; otherwise the HEAD response decides. */
  lemma UploadRequests(srv: Server, log: seq<Request>, fs: Fs, times: map<string, Metadata.TakenTime>, source: string, target: string)
    requires Metadata.TakenTimeOf(times, fs, source).time.Ok?
    ensures var taken := Metadata.TakenTimeOf(times, fs, source).time.value;
      var put := PutOf(fs, source, target, taken);
      var putStatus := srv(log, put).status;
      var r := Upload(srv, log, fs, times, source, target);
      && (!IsSuccess(putStatus) ==> r.log == log + [put] && r.result == Err(UploadFailed(putStatus)))
      && (IsSuccess(putStatus) ==>
            && r.log == log + [put, Head(target)]
            && r.result == Verify(putStatus, srv(log + [put], Head(target)), fs.size(source)))
  {
    var taken := Metadata.TakenTimeOf(times, fs, source).time.value;
    var put := PutOf(fs, source, target, taken);
    assert log + [put] + [Head(target)] == log + [put, Head(target)];
  }

  /** `upload` returns true exactly when the taken time is known, the PUT
      status is in [200, 399], the HEAD status is 200 and the first
      content-length value equals the local size. */
  lemma UploadSucceedsIff(srv: Server, log: seq<Request>, fs: Fs, times: map<string, Metadata.TakenTime>, source: string, target: string)
    ensures var lookup := Metadata.TakenTimeOf(times, fs, source);
      var r := Upload(srv, log, fs, times, source, target);
      r.result.Ok? <==>
        && lookup.time.Ok?
        && var put := PutOf(fs, source, target, lookup.time.value);
           && IsSuccess(srv(log, put).status)
           && var head := srv(log + [put], Head(target));
              && head.status == 200
              && head.contentLength.Some?
              && FirstLength(head.contentLength.value) == fs.size(source)
  {
    if Metadata.TakenTimeOf(times, fs, source).time.Ok? {
      UploadRequests(srv, log, fs, times, source, target);
    }
  }

  /** Exactly one PUT goes out when the taken time is known, and at most
      one HEAD, which follows it. */
  lemma UploadSendsOnePut(srv: Server, log: seq<Request>, fs: Fs, times: map<string, Metadata.TakenTime>, source: string, target: string)
    requires Metadata.TakenTimeOf(times, fs, source).time.Ok?
    ensures var r := Upload(srv, log, fs, times, source, target);
      var sent := r.log[|log|..];
      && 1 <= |sent| <= 2
      && sent[0].Put? && sent[0].path == target
      && (|sent| == 2 ==> sent[1] == Head(target))
      && HeadTargets(sent) == (if |sent| == 2 then [target] else [])
  {
    UploadRequests(srv, log, fs, times, source, target);
  }
}
